=== FILE: README.md ===
# Zalo channel of nanobot, modelled in Dafny

nanobot's Zalo channel (`ZaloChannel` in `nanobot/channels/zalo.py`) talks to a
Node.js bridge over a WebSocket. It logs in, reads frames and turns chat
messages into calls to the host's message intake. It keeps one "typing…"
indicator loop per chat while a reply is being composed, and writes replies
back. An attachment in a message is downloaded, saved under a name derived from
the MD5 of its URL, given an extension from a fixed MIME table, and
transcribed when it looks like audio.

This project models that core as pure functions over immutable state and
proves properties of it:

| file | module | what it holds |
|---|---|---|
| `wrappers.dfy` | `Wrappers` | `Option` |
| `json.dfy` | `Json` | decoded JSON values, `dict.get` with a default, Python truthiness |
| `pytext.dfy` | `PyText` | `strip()`, `split(sep)[0]`, ASCII `lower()`, `startswith`, substring `in` |
| `mime.dfy` | `MimeTable`, `Mime` | the MIME-to-extension table, `_get_extension_from_mime`, the audio test and the display kind |
| `attachment.dfy` | `Attachment` | `_handle_attachment_content`, with download and transcription outcomes as inputs |
| `typing.dfy` | `TypingRegistry` | `_start_typing` / `_stop_typing` over a registry of task records, and the registry invariant |
| `channel.dfy` | `Channel` | the channel state; the loop head, the handshake, connection loss, `stop`, `send`, dispatch of one bridge frame, one round of a typing loop |
| `session.dfy` | `Session` | arbitrary runs of those transitions, and the properties that hold on every run |
| `scenarios.dfy` | `Scenarios` | the audio-attachment and "hi"/"hello" scenarios |

Every effect the channel has on the outside world is recorded in order in a
trace. An effect is a frame written to the bridge, an attachment download or
transcription begun, a typing task started, or a call into the message intake. This makes ordering properties statable, e.g.
"no typing frame for a chat after its reply until a new message arrives".

Outcomes the channel cannot decide are inputs to the model:

- whether a socket write raised;
- what the HTTP download returned;
- what the transcriber returned;
- the MD5 digest of a URL (a function to 32 lower-case hex digits);
- Python's `str()` of a non-string JSON value.

Chat ids are arbitrary JSON values, because `data.get("threadId", "")` returns
whatever the bridge sent. They are used as dictionary keys with Python's
hashing: `True` and `1` are the same key, and a list or dict raises
`TypeError`, which drops the frame.

Four behaviours of the code are easy to miss, and the model keeps them:

- The typing task is started only once the attachment step has returned, so
  the download and any transcription come first (`zalo.py:153-164`). The
  "before processing" at `zalo.py:163` refers to the intake call that follows.
- The loop flag is read only at the loop head (`zalo.py:52`). A connection
  attempt that began before `stop()` still completes its handshake, holds the
  socket, marks the channel connected and writes the login frame afterwards.
- A connection error does not cancel or remove typing tasks (`zalo.py:71-78`).
  A typing loop ends by itself at its next round once the channel is no longer
  connected, and its registry entry stays until it is stopped.
- `_start_typing` cancels the previous task without waiting for it to finish.
  In the model, cancellation takes effect at once.

## Model

| member | source | states |
|---|---|---|
| MimeTable.LookupFindsListed | nanobot/channels/zalo.py:271-327 | a type has an extension in the table exactly when one of the table's sections lists it |
| MimeTable.LookupFindsLastListing | nanobot/channels/zalo.py:271-327 | the extension found is the one given by the last entry for that type in the dict literal |
| MimeTable.PngRow | nanobot/channels/zalo.py:275 | `image/png` maps to `.png` |
| MimeTable.MpegAudioRow | nanobot/channels/zalo.py:284 | `audio/mpeg` maps to `.mp3` |
| MimeTable.UnlistedRows | nanobot/channels/zalo.py:271-327 | upper-case `IMAGE/PNG` and an invented type are not in the table (keys match case-sensitively) |
| PyText.TrimLeftShape | nanobot/channels/zalo.py:329 | `lstrip` keeps a suffix, drops only white space, and leaves no leading white space |
| PyText.TrimRightShape | nanobot/channels/zalo.py:329 | `rstrip` keeps a prefix, drops only white space, and leaves no trailing white space |
| PyText.StripShape | nanobot/channels/zalo.py:329 | `strip()` returns a contiguous piece of its input with only white space removed around it, and no white space at either end |
| PyText.StripPadded | nanobot/channels/zalo.py:329 | `strip()` of a word padded with white space gives back the word |
| PyText.BeforeFirst | nanobot/channels/zalo.py:329 | `split(";")[0]` is a prefix without `;`, and is followed by `;` whenever it is shorter than the input |
| PyText.BeforeFirstIgnoresRest | nanobot/channels/zalo.py:329 | whatever follows the first `;` does not change `split(";")[0]` |
| PyText.Lower | nanobot/channels/zalo.py:221 | `lower()` keeps the length and lower-cases each character on its own |
| PyText.LowerIdempotent | nanobot/channels/zalo.py:221 | lower-casing twice is lower-casing once |
| PyText.PrefixIsContained | nanobot/channels/zalo.py:231 | a prefix is a substring, so `startswith(t)` implies `t in` |
| Json.Get | nanobot/channels/zalo.py:138-151 | `dict.get(key, default)` is the stored value when the key is present and the default otherwise |
| Json.FalsyValues | nanobot/channels/zalo.py:202 | `if not href` holds exactly for `None`, `False`, `0`, `""`, `[]` and `{}` |
| MimeTable.LookupFindsEntry | nanobot/channels/zalo.py:271-330 | a type that is found maps to the entry of a section that lists it |
| MimeTable.ExtensionsNonEmpty | nanobot/channels/zalo.py:271-327 | no extension in the table is empty, so `""` from the lookup means "not listed" |
| Mime.MainType | nanobot/channels/zalo.py:329 | the main type used for lookup has no `;` and does not start or end with white space |
| Mime.ExtensionFromMime | nanobot/channels/zalo.py:269-330 | the extension is non-empty exactly when the table lists the main type, and then it is the table's entry for that type |
| Mime.ExtensionOfMainType | nanobot/channels/zalo.py:328-330 | the extension is `""` for a main type the table does not list, and the table's entry for one it lists; the lookup never fails |
| Mime.MainTypeIgnoresParameters | nanobot/channels/zalo.py:329 | text after the first `;` does not change the main type |
| Mime.MainTypeOfPadded | nanobot/channels/zalo.py:329 | white space around a bare type is stripped and the bare type is kept unchanged |
| Mime.MainTypeOfHeader | nanobot/channels/zalo.py:329 | a bare type, padded or not, with or without parameters, has itself as main type |
| Mime.ExtensionDependsOnMainTypeOnly | nanobot/channels/zalo.py:328-330 | parameters and surrounding white space do not change the extension; the bare type is looked up as it is |
| Mime.ExtensionExamples | nanobot/channels/zalo.py:269-330 | `image/png; charset=binary` gives `.png`, ` audio/mpeg ` gives `.mp3`, an unknown type and `IMAGE/PNG` give `""` |
| Mime.MpegAudioExtension | nanobot/channels/zalo.py:284 | `audio/mpeg` gives `.mp3` |
| Mime.AudioTestIsSubstringTest | nanobot/channels/zalo.py:231 | the audio test `IsAudio` holds exactly when `audio` occurs in the type; the prefix half adds nothing |
| Mime.DisplayKind | nanobot/channels/zalo.py:250-258 | image and video prefixes win over the audio test; audio only when neither prefix and the audio test holds; otherwise file; one if-and-only-if per kind |
| Mime.AudioKindPrecedence | nanobot/channels/zalo.py:231-258 | a displayed audio kind implies the audio test; `video/x-audio` passes the audio test but is shown as video |
| Attachment.ContentTypeOf | nanobot/channels/zalo.py:221 | the content type is the header lower-cased character by character, so it has no upper-case letters; a missing header is `""` |
| Attachment.SavedPath | nanobot/channels/zalo.py:208-225 | the saved file is the media directory, the path separator, `zalo_`, the first 16 hex digits of the URL's MD5 digest, then the extension |
| Attachment.Labelled | nanobot/channels/zalo.py:260 | the `[kind: path]` text: the kind's name and the path can both be read back from it |
| Attachment.Describe | nanobot/channels/zalo.py:231-260 | a non-empty transcription of an audio type is shown as `[transcription: …]`; otherwise the `[kind: path]` text |
| Attachment.HandleAttachment | nanobot/channels/zalo.py:196-267 | a falsy href gives the no-URL text; an exception gives `[attachment: href]`; a status other than 200 gives the download-failed text. A path is returned exactly when a string href was downloaded with status 200; it is the saved file, named by the main type's extension |
| Attachment.SavedDownload | nanobot/channels/zalo.py:219-260 | a successful download returns the saved path and the description of its content type |
| Attachment.FailureExamples | nanobot/channels/zalo.py:198-203 | empty and null href, a 404 and a raised download each give their failure text and no path |
| TypingRegistry.KeyOf | nanobot/channels/zalo.py:336-340 | a chat id is unusable as a key exactly when it is a list or a dict; a string id is its own key |
| TypingRegistry.KeyOfMatchesEquality | nanobot/channels/zalo.py:336-340 | two hashable ids select the same entry exactly when Python considers them equal |
| TypingRegistry.EmptyValid | nanobot/channels/zalo.py:40 | the empty registry satisfies the invariant and has no live task |
| TypingRegistry.Stop | nanobot/channels/zalo.py:338-342 | the entry is popped; only its task changes, and only from live to cancelled; other entries are unchanged; an absent id changes nothing |
| TypingRegistry.Start | nanobot/channels/zalo.py:332-336 | an unhashable id fails with nothing changed; otherwise the id is stopped and a fresh live task is registered for it |
| TypingRegistry.Finish | nanobot/channels/zalo.py:344-357 | a typing loop that returns by itself marks only its own live task done, and leaves the entries alone |
| TypingRegistry.StopAll | nanobot/channels/zalo.py:85-87 | every entry is gone and no task changes its chat |
| TypingRegistry.StopValid | nanobot/channels/zalo.py:338-342 | stopping keeps the invariant and leaves no live task for that id |
| TypingRegistry.StartValid | nanobot/channels/zalo.py:332-336 | starting keeps the invariant |
| TypingRegistry.FinishValid | nanobot/channels/zalo.py:344-357 | a loop ending by itself keeps the invariant |
| TypingRegistry.StartRegistersFresh | nanobot/channels/zalo.py:332-336 | after a start the id's entry is the fresh task, the replaced live task is cancelled, and the fresh task is the only live one for the id |
| TypingRegistry.StartTwice | nanobot/channels/zalo.py:332-336 | starting twice leaves exactly one live task for the id, the second; the first is cancelled |
| TypingRegistry.StopIdempotent | nanobot/channels/zalo.py:338-342 | stopping a second time changes nothing |
| TypingRegistry.OtherChatsUnaffected | nanobot/channels/zalo.py:332-342 | a start for one id leaves every other id's entry and task unchanged |
| TypingRegistry.StopAllAfterStop | nanobot/channels/zalo.py:85-87 | popping one registered id before stopping all gives the same result as stopping all |
| TypingRegistry.StopEachIsStopAll | nanobot/channels/zalo.py:85-87 | stopping the registered ids one by one, each once, gives the same registry as stopping all |
| TypingRegistry.StopAllQuiet | nanobot/channels/zalo.py:85-87 | after stopping all, no chat has a live task and the invariant holds |
| Channel.Begin | nanobot/channels/zalo.py:50 | `start()` raises the loop flag and changes nothing else |
| Channel.Dial | nanobot/channels/zalo.py:52-53 | a new attempt begins exactly when the loop flag is up and no attempt is in flight; nothing else changes |
| Channel.Opened | nanobot/channels/zalo.py:53-60 | when the attempt in flight completes its handshake, the socket is held, the channel is connected, and the login frame is written unless it raised, whatever the loop flag now says; without an attempt in flight nothing happens |
| Channel.ConnectionLost | nanobot/channels/zalo.py:71-78 | after a connection error the channel is disconnected, holds no socket and has no attempt in flight; it goes back to the loop head exactly when the loop flag is up; typing tasks and trace are untouched |
| Channel.Stop | nanobot/channels/zalo.py:80-91 | `stop()` lowers both flags, drops the socket and stops every typing entry, cancelling its live task and leaving the registry empty, writing nothing; an attempt in flight is left alone |
| Channel.Send | nanobot/channels/zalo.py:93-106 | nothing happens unless a socket is held and the channel is connected; otherwise the chat's typing is stopped first and then the reply frame is written, unless the write raised |
| Channel.MessageContent | nanobot/channels/zalo.py:153-161 | string content is passed through; an attachment gives the attachment step's text, with its path as the only media item; anything else gives the empty-message placeholder |
| Channel.IntakeOf | nanobot/channels/zalo.py:142-151 | each field present in the frame is passed to the intake as it is; missing fields take `.get`'s defaults: `""` for sender and chat, `None` for id and timestamp, `False` for the group flag |
| Channel.AttachmentEffects | nanobot/channels/zalo.py:196-246 | the attachment step goes on to its download exactly when the href is a non-empty string, and that is its first effect; it goes on to a transcription attempt exactly when the file was saved with status 200 and its type passes the audio test, and the attempt is for the saved file |
| Channel.TranscribesSavedFile | nanobot/channels/zalo.py:219-246 | the transcription attempt is for the path the attachment step returns, and a returned path always follows a download |
| Channel.OnMessage | nanobot/channels/zalo.py:140-172 | after the attachment step's effects, a hashable chat id starts a typing task and then the intake is called with the frame's fields; an unhashable id leaves only the attachment step's effects; the flags never change |
| Channel.OnMessageWritesNothing | nanobot/channels/zalo.py:140-172 | handling a message writes no frame to the bridge |
| Channel.DownloadBeforeTyping | nanobot/channels/zalo.py:153-164 | every download and transcription of a message comes before its typing start |
| Channel.DispatchDownloadsBeforeTyping | nanobot/channels/zalo.py:130-164 | the same order holds for a message frame as dispatched |
| Channel.Dispatch | nanobot/channels/zalo.py:130-194 | malformed frames change nothing. A message frame is handled with the content, media and effects of the attachment step. A status frame sets the connection flag for `connected`/`disconnected` only. Every other frame type changes nothing. The effects only grow |
| Channel.TypingTick | nanobot/channels/zalo.py:344-357 | a task that is not live does nothing; a live task with a socket held and the channel connected writes exactly one typing frame for its chat; otherwise, or when that write fails, the task becomes done and nothing is written |
| Channel.Outbox | nanobot/channels/zalo.py:42-357 | the frames reaching the bridge are exactly the frames the trace records writing |
| Channel.OutboxConcat | nanobot/channels/zalo.py:42-357 | the frames of a longer trace are the earlier frames followed by the new ones, in order |
| Session.Apply | nanobot/channels/zalo.py:42-357 | every transition of the channel only appends to the effects so far |
| Session.Run | nanobot/channels/zalo.py:42-357 | a run of transitions only appends to the effects so far |
| Session.ApplyKeepsValid | nanobot/channels/zalo.py:42-357 | every transition keeps the registry invariant |
| Session.RunKeepsValid | nanobot/channels/zalo.py:42-357 | every run of transitions keeps the invariant |
| Session.StartOtherKeepsQuiet | nanobot/channels/zalo.py:332-336 | starting typing for one chat leaves another chat without a live task |
| Session.OnMessageKeepsQuiet | nanobot/channels/zalo.py:140-172 | a message writes nothing for a chat with no live task; afterwards that chat has no live task, or a new task start for it is among the new effects |
| Session.DispatchKeepsQuiet | nanobot/channels/zalo.py:130-172 | the same for any inbound frame |
| Session.SendKeepsQuiet | nanobot/channels/zalo.py:93-106 | a reply writes no typing frame and starts no task |
| Session.TickKeepsQuiet | nanobot/channels/zalo.py:344-357 | a typing round writes no frame for a chat with no live task |
| Session.ApplyKeepsQuiet | nanobot/channels/zalo.py:42-357 | any transition taken while a chat has no live task writes no typing frame for it, and either keeps it without a live task or starts one |
| Session.QuietConcat | nanobot/channels/zalo.py:332-357 | a quiet stretch followed by a stretch in which typing is always preceded by a start is such a stretch as a whole |
| Session.QuietAfterStop | nanobot/channels/zalo.py:332-357 | from a state with no live task for a chat, every later typing frame for it comes after a new task start for it |
| Session.NoTypingAfterReply | nanobot/channels/zalo.py:93-106 | after a reply to a chat, no typing frame for that chat is written until a new message from it starts a task |
| Session.NoTypingAfterHalt | nanobot/channels/zalo.py:80-91 | after `stop()`, no typing frame for any chat is written until a new message from it starts a task |
| Session.HaltEndsReconnects | nanobot/channels/zalo.py:52-78 | right after `stop()` the loop head begins no attempt, and a connection error does not lead to a retry |
| Session.StaysStopped | nanobot/channels/zalo.py:42-357 | no transition other than `start()` raises the loop flag, and with the flag down no attempt is begun |
| Session.NoAttemptAfterHaltRun | nanobot/channels/zalo.py:52-91 | at every point of every run after `stop()` without a restart, the loop head begins no attempt and a connection error is not retried; if no attempt was in flight at `stop()`, none is ever in flight again, so no handshake completes |
| Session.InFlightAttemptOutlivesHalt | nanobot/channels/zalo.py:52-91 | an attempt begun before `stop()` still connects when its handshake completes, holding a socket and writing the login frame with the loop flag down |
| Scenarios.MpegAudioFacts | nanobot/channels/zalo.py:221-258 | `audio/mpeg` passes the audio test, is displayed as audio and has extension `.mp3` |
| Scenarios.MpegAudioPath | nanobot/channels/zalo.py:225 | an `audio/mpeg` download is saved under a name ending in `.mp3` |
| Scenarios.MpegAudioSaved | nanobot/channels/zalo.py:219-260 | an `audio/mpeg` download yields the `.mp3` saved path |
| Scenarios.MpegAudioDescribed | nanobot/channels/zalo.py:234-260 | the description of an `audio/mpeg` file is the transcription when there is one, else `[audio: path]` |
| Scenarios.TranscribedExample | nanobot/channels/zalo.py:234-246 | with a working transcriber, the display is the transcription wrapper and the path is the `.mp3` file |
| Scenarios.UntranscribedExample | nanobot/channels/zalo.py:247-260 | with a failing or empty transcription, the display is `[audio: path]` with the same path |
| Scenarios.HiFrameFields | nanobot/channels/zalo.py:138-151 | the example frame is a message from thread `c1` saying "hi", and the intake receives `u1`, `c1`, `hi` and its metadata |
| Scenarios.ReceiveHi | nanobot/channels/zalo.py:140-172 | a "hi" message in `c1` starts typing task 0 for `c1`, then calls the intake |
| Scenarios.ReplyHello | nanobot/channels/zalo.py:93-106 | replying "hello" to `c1` cancels its typing task and writes one send frame |
| Scenarios.RunOfFive | nanobot/channels/zalo.py:42-106 | five transitions run in order |
| Scenarios.HiThenHello | nanobot/channels/zalo.py:42-172 | start, dial, connect and log in, receive "hi", reply "hello": the effects are login, typing start, intake and the reply, in that order, and no typing entry is left |
| Scenarios.HiThenHelloOutbox | nanobot/channels/zalo.py:93-125 | of those effects, only the login frame and the reply frame reach the bridge |

## Left out

- WebSocket I/O: connecting, reading frames and closing the socket are not modelled. The loop head is the transition `Dial`, a completed handshake is `Opened`, a failure is `ConnectionLost`, and each frame read is a `Receive` step.
- `_send_login`'s payload is not modelled. The cookie re-parse through `strip().startswith("[")` and `json.loads` depends only on configuration, so the login frame is the constructor `Login`, and a failure while preparing or writing it is the `loginOk` flag.
- JSON encoding and decoding: `json.loads` is not modelled. Text that is not JSON and JSON that is not an object are both the `Malformed` frame, since the read loop logs and drops each. The `login` and `error` frame types only log, and are treated like any other unknown type.
- Floating-point JSON numbers are not modelled; numbers are integers.
- The HTTP download (aiohttp), `mkdir` and `write_bytes` are not modelled. Their combined result is the `FetchResult` input, where `Raised` stands for an exception in any of them.
- `hashlib.md5` and Python's `str()` of non-string values are functions in `Env`. The media directory `~/.nanobot/media` is `Env.mediaDir`, and the separator `str()` of a `Path` uses (`/` on POSIX, `\` on Windows) is `Env.sep`. Normalisation of the directory itself (a trailing separator, `..`) is not modelled.
- The transcription provider (`nanobot/providers/transcription.py`) is not part of this model. Its result is the `Transcript` input, and an exception while importing, constructing or calling it is `TranscribeRaised`.
- `BaseChannel._handle_message` in `nanobot/channels/base.py` is not part of this model; the call into it is the `Handled` event.
- Logging is not modelled.
- Timing is not modelled: the 5-second reconnect delay and the 4-second typing interval. Concurrency is modelled only coarsely: a typing loop's rounds are explicit `Tick` steps that may interleave with any other step, but one inbound frame is one atomic `Receive` step. The code awaits the download, the transcription and `_handle_message` (`zalo.py:157-172`), so a `stop()`, a reply or a typing round can run between a message's download and its `_start_typing`, or during the intake call. The model does not interleave those.
- Cancellation of a task is modelled as taking effect at once. A cancelled task never writes again, so the window in which Python's cancel is only requested is not modelled.
- `asyncio.CancelledError` ending the connection loop is not modelled.
- A clean close of the socket is not a step of its own. It sends the loop back to its head with the socket and the connection flag left set, which `Dial` covers, since `Dial` may be taken whenever no attempt is in flight. `Dial` may therefore also be taken while a connection is still being read, which the code cannot do.
- An exception from `ws.close()` inside `stop()` is not modelled.
- Json.JVal: JSON strings are sequences of Dafny `char`, which are Unicode scalar values. Python's `json.loads` turns a `\ud800` escape into a lone surrogate, which `char` cannot hold. The `UnicodeEncodeError` that `href.encode()` (`zalo.py:214`) raises for such a URL, leading to `[attachment: …]` with no path, is therefore not modelled.
- Channel.AttachmentEffects: `Downloading` and `Transcribing` mark the step going on to the download and to the transcription attempt, not the GET or the provider call taking place. A `mkdir` failure (`zalo.py:209`) still records `Downloading`, and a failed import or constructor (`zalo.py:236-242`) still records `Transcribing`, because the model's inputs do not tell these apart.
- PyText.Lower: lower-cases ASCII letters only; Python's `str.lower()` also maps non-ASCII letters. The two differ on headers with non-ASCII letters, e.g. the Kelvin sign U+212A, which Python lowers to `k`.

=== FILE: attachment.dfy ===
/**
  The attachment pipeline of an inbound message: given the attachment's `href`,
  the outcome of downloading and saving it, and the outcome of transcribing it,
  decide the text shown to the agent and the local path handed on as media.
  Downloading, writing the file, hashing and transcribing are performed by
  collaborators; their results arrive here as values.
 */
module Attachment {
  import opened Wrappers
  import opened Json
  import opened PyText
  import opened Mime

  predicate IsHexDigit(c: char) {
    '0' <= c <= '9' || 'a' <= c <= 'f'
  }

  /** An MD5 digest in lower-case hexadecimal, as `hexdigest()` renders it. */
  type Digest = s: string | |s| == 32 && forall i :: 0 <= i < |s| ==> IsHexDigit(s[i])
    witness "00000000000000000000000000000000"

  /** What the download step produced: an exception anywhere in creating the
      media directory, the GET request, reading the body or writing the file,
      or a response with its status code and optional Content-Type header. */
  datatype FetchResult =
    | Raised
    | Response(status: int, contentType: Option<string>, body: seq<bv8>)

  /** What the transcription step produced: its text (possibly empty), or an
      exception while constructing or calling the transcriber. */
  datatype Transcript = Text(text: string) | TranscribeRaised

  /** The process-wide collaborators the pipeline consults: the media
      directory, the separator `str()` of a `Path` puts between a directory and
      a file name (`/` on POSIX, `\` on Windows), the MD5 hex digest of a URL,
      and Python's `str()` of a non-string JSON value. */
  datatype Env = Env(mediaDir: string, sep: char, md5: string -> Digest, show: JVal -> string)

  /** The pair returned to the dispatcher: display text and optional saved path. */
  datatype Outcome = Outcome(display: string, path: Option<string>)

  const NoUrl: string := "[attachment: no URL]"
  const DownloadFailed: string := "[attachment: download failed]"

  /** The text a value contributes to an f-string. */
  function Str(env: Env, v: JVal): string {
    if v.JStr? then v.s else env.show(v)
  }

  /** The response's Content-Type header lower-cased, `""` when absent. */
  function ContentTypeOf(header: Option<string>): (ct: string)
    ensures |ct| == |header.GetOr("")|
    ensures forall i :: 0 <= i < |ct| ==> ct[i] == LowerChar(header.GetOr("")[i])
    ensures forall i :: 0 <= i < |ct| ==> !('A' <= ct[i] <= 'Z')
  {
    Lower(header.GetOr(""))
  }

  /** Where a download is saved: the media directory, the separator, `zalo_`,
      the first 16 hex digits of the URL's digest, then the extension. */
  function SavedPath(env: Env, href: string, ext: string): (p: string)
    ensures |p| == |env.mediaDir| + 22 + |ext|
    ensures p[..|env.mediaDir| + 6] == env.mediaDir + [env.sep] + "zalo_"
    ensures p[|env.mediaDir| + 6..|env.mediaDir| + 22] == env.md5(href)[..16]
    ensures forall i :: |env.mediaDir| + 6 <= i < |env.mediaDir| + 22 ==> IsHexDigit(p[i])
    ensures p[|env.mediaDir| + 22..] == ext
  {
    var digest := env.md5(href);
    var n := |env.mediaDir| + 6;
    var p := env.mediaDir + [env.sep] + "zalo_" + digest[..16] + ext;
    assert p[n..n + 16] == digest[..16];
    assert forall i :: n <= i < n + 16 ==> p[i] == digest[i - n];
    p
  }

  /** The `[kind: path]` text of a saved file that was not transcribed: the
      kind's name and the path can both be read back from it. */
  function Labelled(kind: Kind, path: string): (s: string)
    ensures |s| == |kind.Name()| + |path| + 4
    ensures s[0] == '[' && s[|s| - 1] == ']'
    ensures s[1..|kind.Name()| + 1] == kind.Name() && s[|kind.Name()| + 1..|kind.Name()| + 3] == ": "
    ensures s[|kind.Name()| + 3..|s| - 1] == path
  {
    var n := |kind.Name()|;
    var s := "[" + kind.Name() + ": " + path + "]";
    assert s[1..n + 1] == kind.Name();
    assert s[n + 1..n + 3] == ": ";
    assert s[n + 3..|s| - 1] == path;
    s
  }

  /** The display text of a saved download: the transcription when the type
      passes the audio test and the transcriber returned non-empty text,
      otherwise the generic `[kind: path]` text. */
  function Describe(contentType: string, path: string, transcript: Transcript): (display: string)
    ensures IsAudio(contentType) && transcript.Text? && transcript.text != "" ==>
      display == "[transcription: " + transcript.text + "]"
    ensures !(IsAudio(contentType) && transcript.Text? && transcript.text != "") ==>
      display == Labelled(DisplayKind(contentType), path)
  {
    if IsAudio(contentType) && transcript.Text? && transcript.text != "" then
      "[transcription: " + transcript.text + "]"
    else
      Labelled(DisplayKind(contentType), path)
  }

  /** The whole attachment step. The caller never sees an error: every failure
      turns into a display text without a path. */
  function HandleAttachment(href: JVal, fetch: FetchResult, transcript: Transcript, env: Env): (o: Outcome)
    // the three failure texts, none with a path
    ensures !Truthy(href) ==> o == Outcome(NoUrl, None)
    ensures Truthy(href) && (!href.JStr? || fetch.Raised?) ==> o == Outcome("[attachment: " + Str(env, href) + "]", None)
    ensures Truthy(href) && href.JStr? && fetch.Response? && fetch.status != 200 ==> o == Outcome(DownloadFailed, None)
    // a path exactly when a string URL was downloaded with status 200
    ensures o.path.Some? <==> Truthy(href) && href.JStr? && fetch.Response? && fetch.status == 200
    // the path names the saved file, and the display describes it
    ensures o.path.Some? ==>
      && o.path.value == SavedPath(env, href.s, ExtensionFromMime(ContentTypeOf(fetch.contentType)))
      && o.display == Describe(ContentTypeOf(fetch.contentType), o.path.value, transcript)
  {
    if !Truthy(href) then Outcome(NoUrl, None)
    else if !href.JStr? then Outcome("[attachment: " + Str(env, href) + "]", None)
    else
      match fetch
      case Raised => Outcome("[attachment: " + href.s + "]", None)
      case Response(status, header, _) =>
        if status != 200 then Outcome(DownloadFailed, None)
        else
          var ct := ContentTypeOf(header);
          var path := SavedPath(env, href.s, ExtensionFromMime(ct));
          Outcome(Describe(ct, path, transcript), Some(path))
  }

  /** A string URL downloaded with status 200 is saved under the extension its
      Content-Type maps to, and described from that type. */
  lemma SavedDownload(u: string, header: Option<string>, body: seq<bv8>, t: Transcript, env: Env)
    requires u != ""
    ensures var ct := ContentTypeOf(header); var p := SavedPath(env, u, ExtensionFromMime(ct));
      HandleAttachment(JStr(u), Response(200, header, body), t, env) == Outcome(Describe(ct, p, t), Some(p))
  {
    var ct := ContentTypeOf(header);
    var p := SavedPath(env, u, ExtensionFromMime(ct));
    var o := HandleAttachment(JStr(u), Response(200, header, body), t, env);
    assert o.path == Some(p);
    assert o.display == Describe(ct, p, t);
  }

  /** The three failure paths: no URL, a status other than 200, an exception. */
  lemma FailureExamples(u: string, env: Env, header: Option<string>, body: seq<bv8>, t: Transcript)
    requires u != ""
    ensures HandleAttachment(JStr(""), Raised, t, env) == Outcome(NoUrl, None)
    ensures HandleAttachment(JNull, Raised, t, env) == Outcome(NoUrl, None)
    ensures HandleAttachment(JStr(u), Response(404, header, body), t, env) == Outcome(DownloadFailed, None)
    ensures HandleAttachment(JStr(u), Raised, t, env) == Outcome("[attachment: " + u + "]", None)
  {
  }
}

=== FILE: channel.dfy ===
/**
  The channel's state and the transitions the bridge connection drives: the
  reconnect loop's dial, handshake and failure paths, `stop`, `send`, the dispatch of
  one inbound frame, and one round of a typing loop. Every frame written to
  the bridge, every attachment download and transcription begun, every
  typing task started and every call into the host's message intake is
  appended to a trace, so the order of effects is part of
  the state.
 */
module Channel {
  import opened Wrappers
  import opened Json
  import opened Mime
  import opened Attachment
  import opened TypingRegistry

  /** A frame written to the bridge. The login frame's cookie, IMEI and user
      agent come from configuration and are not modelled. */
  datatype OutFrame =
    | Login
    | SendText(to: string, text: string)
    | Typing(chat: JVal)

  /** A frame read from the bridge: `Malformed` is text that is not JSON, or
      JSON that is not an object (its `.get` raises, and the read loop logs
      and drops the frame); otherwise the decoded object. */
  datatype Inbound = Malformed | Obj(data: map<string, JVal>)

  /** The arguments of one call to the host's message intake. */
  datatype Intake = Intake(
    sender: JVal, chat: JVal, content: string, media: seq<string>,
    messageId: JVal, timestamp: JVal, isGroup: JVal)

  /** An observable effect, in the order it happened. `Downloading` is the
      attachment step going on to its download of a URL: creating the media
      directory, hashing the URL, then the GET; it is recorded even when one
      of those raises before the GET is made. `Transcribing` is the step going
      on to the transcription attempt for a saved audio file; it is recorded
      whatever that attempt returns, including an import or constructor
      failure before the provider is called. */
  datatype Event =
    | Wrote(frame: OutFrame)
    | Downloading(href: string)
    | Transcribing(path: string)
    | TypingStarted(chat: JVal, task: nat)
    | Handled(intake: Intake)

  /** The channel: the loop flag, whether a connection attempt is awaiting
      its handshake, the connection flag, whether a socket is held, the
      typing registry, and the effects so far. */
  datatype State = State(
    running: bool, dialing: bool, connected: bool, wsPresent: bool,
    typing: Registry, trace: seq<Event>)

  const Initial: State := State(false, false, false, false, Empty, [])

  const EmptyMessage: string := "[empty message]"

  /** The frames written so far, in the order they were written: a frame is
      in the outbox exactly when the trace records writing it. */
  function Outbox(trace: seq<Event>): (out: seq<OutFrame>)
    ensures |out| <= |trace|
    ensures forall f :: f in out <==> Wrote(f) in trace
  {
    if trace == [] then []
    else
      var rest := Outbox(trace[1..]);
      assert forall e :: e in trace <==> e == trace[0] || e in trace[1..];
      (if trace[0].Wrote? then [trace[0].frame] else []) + rest
  }

  /** The outbox of a trace extended by more events is the old outbox extended
      by the frames the new events wrote. */
  lemma {:induction false} OutboxConcat(a: seq<Event>, b: seq<Event>)
    ensures Outbox(a + b) == Outbox(a) + Outbox(b)
    decreases |a|
  {
    if a == [] {
      assert a + b == b;
    } else {
      assert (a + b)[0] == a[0] && (a + b)[1..] == a[1..] + b;
      OutboxConcat(a[1..], b);
    }
  }

  // ---------------------------------------------------------------------------
  // The connection loop

  /** `start()` sets the loop flag before the first connection attempt. */
  function Begin(c: State): (d: State)
    ensures d.running && d.dialing == c.dialing && d.connected == c.connected && d.wsPresent == c.wsPresent
    ensures d.typing == c.typing && d.trace == c.trace
  {
    c.(running := true)
  }

  /** The loop head: the loop flag is read, and only while it is up does a
      new connection attempt begin. The flag is read here and nowhere else in
      the attempt. The head is reached after `start()`, after the retry wait,
      and after the bridge closes the socket cleanly; an attempt already
      awaiting its handshake is not started twice. */
  function Dial(c: State): (d: State)
    ensures !c.running || c.dialing ==> d == c
    ensures c.running && !c.dialing ==> d.dialing
    ensures d.running == c.running && d.connected == c.connected && d.wsPresent == c.wsPresent
    ensures d.typing == c.typing && d.trace == c.trace
  {
    if !c.running || c.dialing then c else c.(dialing := true)
  }

  /** The handshake of the attempt in flight completes: the socket is held,
      the channel is marked connected, and the login frame is written unless
      preparing or writing it raised (`loginOk` false). The loop flag is not
      consulted, so an attempt begun before `stop()` still connects after it. */
  function Opened(c: State, loginOk: bool): (d: State)
    ensures !c.dialing ==> d == c
    ensures c.dialing ==> !d.dialing && d.connected && d.wsPresent
    ensures d.running == c.running && d.typing == c.typing
    ensures c.dialing ==> d.trace == c.trace + (if loginOk then [Wrote(Login)] else [])
  {
    if !c.dialing then c
    else c.(dialing := false, wsPresent := true, connected := true,
            trace := c.trace + (if loginOk then [Wrote(Login)] else []))
  }

  /** The attempt or the open connection failed with an error other than
      cancellation: the channel is marked disconnected and drops the socket;
      it waits and goes back to the loop head exactly when the loop flag is
      still up. Typing tasks are left alone. */
  function ConnectionLost(c: State): (r: (State, bool))
    ensures !r.0.connected && !r.0.wsPresent && !r.0.dialing
    ensures r.0.running == c.running && r.0.typing == c.typing && r.0.trace == c.trace
    ensures r.1 <==> c.running
  {
    (c.(dialing := false, connected := false, wsPresent := false), c.running)
  }

  /** `stop()`: the loop flag and the connection flag go down, every typing
      entry is popped with its live task cancelled, and the socket is closed. */
  function Stop(c: State): (d: State)
    ensures !d.running && !d.connected && !d.wsPresent && d.dialing == c.dialing
    ensures d.typing == StopAll(c.typing) && d.typing.tasks == map[] && d.trace == c.trace
  {
    c.(running := false, connected := false, wsPresent := false, typing := StopAll(c.typing))
  }

  // ---------------------------------------------------------------------------
  // Sending

  /** `send`: nothing at all unless a socket is held and the channel is
      connected; otherwise the chat's typing entry is popped, then the reply
      frame is written (`writeOk` false: the write raised and was logged). */
  function Send(c: State, chat: string, text: string, writeOk: bool): (d: State)
    ensures !(c.wsPresent && c.connected) ==> d == c
    ensures c.wsPresent && c.connected ==>
      && d.typing == TypingRegistry.Stop(c.typing, KStr(chat))
      && d.trace == c.trace + (if writeOk then [Wrote(SendText(chat, text))] else [])
    ensures d.running == c.running && d.dialing == c.dialing && d.connected == c.connected && d.wsPresent == c.wsPresent
  {
    if !c.wsPresent || !c.connected then c
    else
      var d := c.(typing := TypingRegistry.Stop(c.typing, KStr(chat)));
      if writeOk then d.(trace := d.trace + [Wrote(SendText(chat, text))]) else d
  }

  // ---------------------------------------------------------------------------
  // Dispatching inbound frames

  /** The content is an attachment descriptor: a dict whose `type` is
      `"attachment"`. */
  predicate IsAttachment(raw: JVal) {
    raw.JObj? && Get(raw.fields, "type", JNull) == JStr("attachment")
  }

  /** The content text and media list of an inbound message: a string is
      passed through, an attachment descriptor goes through the attachment
      step and contributes its saved path, anything else is a placeholder. */
  function MessageContent(raw: JVal, fetch: FetchResult, transcript: Transcript, env: Env): (cm: (string, seq<string>))
    ensures raw.JStr? ==> cm == (raw.s, [])
    ensures !raw.JStr? && !IsAttachment(raw) ==> cm == (EmptyMessage, [])
    ensures IsAttachment(raw) ==>
      var o := HandleAttachment(Get(raw.fields, "href", JStr("")), fetch, transcript, env);
      && cm.0 == o.display
      && (cm.1 == [] <==> o.path.None?)
      && (o.path.Some? ==> cm.1 == [o.path.value])
  {
    if raw.JStr? then (raw.s, [])
    else if IsAttachment(raw) then
      var o := HandleAttachment(Get(raw.fields, "href", JStr("")), fetch, transcript, env);
      // a saved path is never empty, so `if media_path:` keeps every one
      var media := if o.path.Some? && o.path.value != "" then [o.path.value] else [];
      (o.display, media)
    else (EmptyMessage, [])
  }

  /** The effects the attachment step has before it returns: it goes on to
      the download exactly for a string URL that is not empty, and on to the
      transcription attempt exactly for a file saved with status 200 whose
      type passes the audio test. A missing, empty or non-string URL never
      reaches the download. */
  function AttachmentEffects(raw: JVal, fetch: FetchResult, env: Env): (evs: seq<Event>)
    ensures !IsAttachment(raw) ==> evs == []
    ensures IsAttachment(raw) ==>
      var href := Get(raw.fields, "href", JStr(""));
      && (evs != [] <==> Truthy(href) && href.JStr?)
      && (evs != [] ==> evs[0] == Downloading(href.s))
      && (|evs| == 2 <==> evs != [] && fetch.Response? && fetch.status == 200 && IsAudio(ContentTypeOf(fetch.contentType)))
      && (|evs| == 2 ==> evs[1] == Transcribing(SavedPath(env, href.s, ExtensionFromMime(ContentTypeOf(fetch.contentType)))))
    ensures |evs| <= 2
    ensures AttachmentOnly(evs)
  {
    if !IsAttachment(raw) then []
    else
      var href := Get(raw.fields, "href", JStr(""));
      if !Truthy(href) || !href.JStr? then []
      else
        match fetch
        case Response(200, header, _) =>
          var ct := ContentTypeOf(header);
          if IsAudio(ct) then [Downloading(href.s), Transcribing(SavedPath(env, href.s, ExtensionFromMime(ct)))]
          else [Downloading(href.s)]
        case _ => [Downloading(href.s)]
  }

  /** The file handed to the transcriber is the one whose path the attachment
      step returns, and it is handed over only for a saved download. */
  lemma TranscribesSavedFile(raw: JVal, fetch: FetchResult, t: Transcript, env: Env)
    requires IsAttachment(raw)
    ensures var evs := AttachmentEffects(raw, fetch, env);
      var o := HandleAttachment(Get(raw.fields, "href", JStr("")), fetch, t, env);
      && (|evs| == 2 ==> o.path.Some? && evs[1] == Transcribing(o.path.value))
      && (o.path.Some? ==> evs != [])
  {
  }

  /** The intake arguments of a message frame, with the defaults `.get` uses. */
  function IntakeOf(data: map<string, JVal>, content: string, media: seq<string>): (i: Intake)
    ensures "senderId" in data ==> i.sender == data["senderId"]
    ensures "threadId" in data ==> i.chat == data["threadId"]
    ensures "isGroup" in data ==> i.isGroup == data["isGroup"]
    ensures "messageId" in data ==> i.messageId == data["messageId"]
    ensures "timestamp" in data ==> i.timestamp == data["timestamp"]
    ensures "senderId" !in data ==> i.sender == JStr("")
    ensures "threadId" !in data ==> i.chat == JStr("")
    ensures "isGroup" !in data ==> i.isGroup == JBool(false)
    ensures "messageId" !in data ==> i.messageId == JNull
    ensures "timestamp" !in data ==> i.timestamp == JNull
    ensures i.content == content && i.media == media
  {
    Intake(
      Get(data, "senderId", JStr("")), Get(data, "threadId", JStr("")), content, media,
      Get(data, "messageId", JNull), Get(data, "timestamp", JNull), Get(data, "isGroup", JBool(false)))
  }

  /** A frame whose `type` is `"message"`. */
  predicate IsMessage(frame: Inbound) {
    frame.Obj? && Get(frame.data, "type", JNull) == JStr("message")
  }

  /** A message frame, processed in the code's order: the attachment step
      has already run (its display text and media list are `content` and
      `media`, its downloads and transcriptions `effects`); then the chat's
      typing task is started, then the message is handed to the intake. An
      unhashable `threadId` makes the typing start raise after the
      attachment step, and the frame is dropped with only that step's
      effects. */
  function OnMessage(c: State, data: map<string, JVal>, content: string, media: seq<string>, effects: seq<Event>): (d: State)
    ensures c.trace <= d.trace
    ensures d.running == c.running && d.dialing == c.dialing && d.connected == c.connected && d.wsPresent == c.wsPresent
    ensures
      var chat := Get(data, "threadId", JStr(""));
      if KeyOf(chat).None? then d == c.(trace := c.trace + effects)
      else
        && d.typing == Start(c.typing, chat).value
        && d.trace == c.trace + effects + [TypingStarted(chat, c.typing.next), Handled(IntakeOf(data, content, media))]
  {
    var chat := Get(data, "threadId", JStr(""));
    match Start(c.typing, chat)
    case None => c.(trace := c.trace + effects)
    case Some(typing) =>
      c.(typing := typing,
         trace := c.trace + effects + [TypingStarted(chat, c.typing.next), Handled(IntakeOf(data, content, media))])
  }

  /** The attachment step's effects are downloads and transcriptions only. */
  predicate AttachmentOnly(effects: seq<Event>) {
    forall e :: e in effects ==> e.Downloading? || e.Transcribing?
  }

  /** A message writes nothing back to the bridge: the typing indicator is
      left to the typing loop and the reply to `send`. */
  lemma OnMessageWritesNothing(c: State, data: map<string, JVal>, content: string, media: seq<string>, effects: seq<Event>)
    requires AttachmentOnly(effects)
    ensures var d := OnMessage(c, data, content, media, effects);
      c.trace <= d.trace && forall i :: |c.trace| <= i < |d.trace| ==> !d.trace[i].Wrote?
  {
    var chat := Get(data, "threadId", JStr(""));
    var tail := if KeyOf(chat).None? then []
                else [TypingStarted(chat, c.typing.next), Handled(IntakeOf(data, content, media))];
    assert OnMessage(c, data, content, media, effects).trace == c.trace + effects + tail;
    MessageShape(c.trace, effects, tail);
  }

  /** One inbound frame: a message goes to `OnMessage`, a `status` frame may
      move the connection flag, and every other frame (a login result, a
      bridge error, an unknown type, text that is not a JSON object) is
      logged only. */
  function Dispatch(c: State, frame: Inbound, fetch: FetchResult, transcript: Transcript, env: Env): (d: State)
    ensures !frame.Obj? ==> d == c
    ensures IsMessage(frame) ==>
      var raw := Get(frame.data, "content", JStr(""));
      var cm := MessageContent(raw, fetch, transcript, env);
      d == OnMessage(c, frame.data, cm.0, cm.1, AttachmentEffects(raw, fetch, env))
    ensures c.trace <= d.trace
    ensures d.running == c.running && d.dialing == c.dialing && d.wsPresent == c.wsPresent
    ensures !IsMessage(frame) ==> d.typing == c.typing && d.trace == c.trace
    ensures frame.Obj? && Get(frame.data, "type", JNull) == JStr("status") ==>
      d.connected == (match Get(frame.data, "status", JNull)
                      case JStr("connected") => true
                      case JStr("disconnected") => false
                      case _ => c.connected)
    ensures frame.Obj? ==>
      (Get(frame.data, "type", JNull) !in {JStr("message"), JStr("status")} ==> d == c)
  {
    match frame
    case Malformed => c
    case Obj(data) =>
      var kind := Get(data, "type", JNull);
      if kind == JStr("message") then
        var raw := Get(data, "content", JStr(""));
        var cm := MessageContent(raw, fetch, transcript, env);
        OnMessage(c, data, cm.0, cm.1, AttachmentEffects(raw, fetch, env))
      else if kind == JStr("status") then
        var status := Get(data, "status", JNull);
        if status == JStr("connected") then c.(connected := true)
        else if status == JStr("disconnected") then c.(connected := false)
        else c
      else c
  }

  /** Within one message frame, every download and transcription comes
      before the typing start: the typing indicator never runs while the
      attachment is being fetched. */
  lemma DownloadBeforeTyping(c: State, data: map<string, JVal>, content: string, media: seq<string>, effects: seq<Event>)
    requires AttachmentOnly(effects)
    ensures var d := OnMessage(c, data, content, media, effects);
      forall i, j ::
        && |c.trace| <= i < |d.trace| && |c.trace| <= j < |d.trace|
        && d.trace[i].TypingStarted? && (d.trace[j].Downloading? || d.trace[j].Transcribing?)
        ==> j < i
  {
    var chat := Get(data, "threadId", JStr(""));
    var tail := if KeyOf(chat).None? then []
                else [TypingStarted(chat, c.typing.next), Handled(IntakeOf(data, content, media))];
    assert OnMessage(c, data, content, media, effects).trace == c.trace + effects + tail;
    MessageShape(c.trace, effects, tail);
  }

  /** The same order for a whole message frame as dispatched. */
  lemma DispatchDownloadsBeforeTyping(c: State, frame: Inbound, fetch: FetchResult, t: Transcript, env: Env)
    requires IsMessage(frame)
    ensures var d := Dispatch(c, frame, fetch, t, env);
      forall i, j ::
        && |c.trace| <= i < |d.trace| && |c.trace| <= j < |d.trace|
        && d.trace[i].TypingStarted? && (d.trace[j].Downloading? || d.trace[j].Transcribing?)
        ==> j < i
  {
    var raw := Get(frame.data, "content", JStr(""));
    var cm := MessageContent(raw, fetch, t, env);
    DownloadBeforeTyping(c, frame.data, cm.0, cm.1, AttachmentEffects(raw, fetch, env));
  }

  /** The trace shape of a message: earlier events, then the attachment
      step's effects, then at most a task start and an intake call. Nothing
      in it after the earlier events is a write, and every download or
      transcription comes before every task start. */
  lemma MessageShape(prior: seq<Event>, effects: seq<Event>, tail: seq<Event>)
    requires AttachmentOnly(effects)
    requires forall e :: e in tail ==> e.TypingStarted? || e.Handled?
    ensures var s := prior + effects + tail;
      && (forall i :: |prior| <= i < |s| ==> !s[i].Wrote?)
      && (forall i, j ::
            && |prior| <= i < |s| && |prior| <= j < |s|
            && s[i].TypingStarted? && (s[j].Downloading? || s[j].Transcribing?)
            ==> j < i)
  {
    var s := prior + effects + tail;
    var n := |prior| + |effects|;
    forall i | |prior| <= i < |s|
      ensures i < n ==> s[i].Downloading? || s[i].Transcribing?
      ensures i >= n ==> s[i].TypingStarted? || s[i].Handled?
    {
      if i < n {
        assert s[i] == effects[i - |prior|] && effects[i - |prior|] in effects;
      } else {
        assert s[i] == tail[i - n] && tail[i - n] in tail;
      }
    }
  }

  // ---------------------------------------------------------------------------
  // Typing loops

  /** One round of the typing loop of task `id`. A task that is not live does
      nothing. A live task returns (and is done) when no socket is held or the
      channel is not connected; otherwise it writes a typing frame for its
      chat and sleeps, and a failed write ends it the same way. */
  function TypingTick(c: State, id: nat, writeOk: bool): (d: State)
    // a task that is not live does nothing
    ensures !(id in c.typing.pool && c.typing.pool[id].status == Live) ==> d == c
    // a live task with a connected socket writes one typing frame for its chat
    ensures id in c.typing.pool && c.typing.pool[id].status == Live && c.wsPresent && c.connected && writeOk ==>
      d == c.(trace := c.trace + [Wrote(Typing(c.typing.pool[id].chat))])
    // otherwise the live task ends by itself: it becomes done, nothing is written
    ensures id in c.typing.pool && c.typing.pool[id].status == Live && !(c.wsPresent && c.connected && writeOk) ==>
      d == c.(typing := Finish(c.typing, id)) && d.typing.pool[id].status == Done
    ensures d.running == c.running && d.dialing == c.dialing && d.connected == c.connected && d.wsPresent == c.wsPresent
    ensures !(c.wsPresent && c.connected) ==> d.trace == c.trace
  {
    if id !in c.typing.pool || c.typing.pool[id].status != Live then c
    else if !c.wsPresent || !c.connected then c.(typing := Finish(c.typing, id))
    else if writeOk then c.(trace := c.trace + [Wrote(Typing(c.typing.pool[id].chat))])
    else c.(typing := Finish(c.typing, id))
  }
}

=== FILE: json.dfy ===
/**
  Decoded JSON values as the bridge delivers them, together with the two Python
  behaviours the channel applies to them: `dict.get(key, default)` and the
  truthiness test of `if x:`.
 */
module Json {

  /** A decoded JSON value. Numbers are integers; fractional numbers are not modelled. */
  datatype JVal =
    | JNull
    | JBool(b: bool)
    | JNum(n: int)
    | JStr(s: string)
    | JArr(items: seq<JVal>)
    | JObj(fields: map<string, JVal>)

  /** Python's `fields.get(key, default)`. A key that is present with the value
      `null` yields `JNull`, just as `get` yields `None` for it. */
  function Get(fields: map<string, JVal>, key: string, default: JVal): (v: JVal)
    ensures key in fields ==> v == fields[key]
    ensures key !in fields ==> v == default
  {
    if key in fields then fields[key] else default
  }

  /** Python truthiness: `None`, `False`, `0`, and empty strings, lists and
      dicts are false; everything else is true. */
  predicate Truthy(v: JVal) {
    match v
    case JNull => false
    case JBool(b) => b
    case JNum(n) => n != 0
    case JStr(s) => s != ""
    case JArr(items) => items != []
    case JObj(fields) => fields != map[]
  }

  /** The values `if not x:` takes: exactly the six empty or zero values. */
  lemma FalsyValues(v: JVal)
    ensures !Truthy(v) <==>
      v in {JNull, JBool(false), JNum(0), JStr(""), JArr([]), JObj(map[])}
  {
  }
}

=== FILE: mime.dfy ===
/**
  The fixed MIME-type to file-extension table of the channel, kept apart from
  the classifier so that facts about single rows are proved against the table
  alone.
 */
module MimeTable {
  import opened Wrappers

  /* The table in the sections it is written in. Keys are compared exactly,
     so the lookup is case-sensitive. */

  const ImageTypes: map<string, string> := map[
      "image/jpeg" := ".jpg",
      "image/jpg" := ".jpg",
      "image/png" := ".png",
      "image/gif" := ".gif",
      "image/webp" := ".webp",
      "image/bmp" := ".bmp",
      "image/svg+xml" := ".svg",
      "image/tiff" := ".tiff",
      "image/x-icon" := ".ico"
    ]

  const AudioTypes: map<string, string> := map[
      "audio/ogg" := ".ogg",
      "audio/mpeg" := ".mp3",
      "audio/mp3" := ".mp3",
      "audio/mp4" := ".m4a",
      "audio/wav" := ".wav",
      "audio/wave" := ".wav",
      "audio/x-wav" := ".wav",
      "audio/aac" := ".aac",
      "audio/webm" := ".weba",
      "audio/flac" := ".flac",
      "audio/x-m4a" := ".m4a"
    ]

  const VideoTypes: map<string, string> := map[
      "video/mp4" := ".mp4",
      "video/webm" := ".webm",
      "video/avi" := ".avi",
      "video/x-msvideo" := ".avi",
      "video/mpeg" := ".mpeg",
      "video/quicktime" := ".mov",
      "video/x-matroska" := ".mkv",
      "video/3gpp" := ".3gp",
      "video/x-flv" := ".flv"
    ]

  const DocumentTypes: map<string, string> := map[
      "application/pdf" := ".pdf",
      "application/msword" := ".doc",
      "application/vnd.openxmlformats-officedocument.wordprocessingml.document" := ".docx",
      "application/vnd.ms-excel" := ".xls",
      "application/vnd.openxmlformats-officedocument.spreadsheetml.sheet" := ".xlsx",
      "application/vnd.ms-powerpoint" := ".ppt",
      "application/vnd.openxmlformats-officedocument.presentationml.presentation" := ".pptx",
      "text/plain" := ".txt",
      "text/csv" := ".csv",
      "text/html" := ".html",
      "application/json" := ".json",
      "application/xml" := ".xml",
      "text/xml" := ".xml"
    ]

  const ArchiveTypes: map<string, string> := map[
      "application/zip" := ".zip",
      "application/x-zip-compressed" := ".zip",
      "application/x-rar-compressed" := ".rar",
      "application/x-7z-compressed" := ".7z",
      "application/x-tar" := ".tar",
      "application/gzip" := ".gz"
    ]

  const OtherTypes: map<string, string> := map[
      "application/octet-stream" := ".bin"
    ]

  /** The number of sections. */
  const SectionCount: nat := 6

  /** The `i`-th section, in the order they are written. */
  function Section(i: nat): map<string, string>
    requires i < SectionCount
  {
    if i == 0 then ImageTypes
    else if i == 1 then AudioTypes
    else if i == 2 then VideoTypes
    else if i == 3 then DocumentTypes
    else if i == 4 then ArchiveTypes
    else OtherTypes
  }

  /** `dict.get(t)` on the first `n` sections, searched from the last one back
      (a later entry of a dict literal overrides an earlier one). */
  function LookupUpTo(n: nat, t: string): Option<string>
    requires n <= SectionCount
    decreases n
  {
    if n == 0 then None
    else if t in Section(n - 1) then Some(Section(n - 1)[t])
    else LookupUpTo(n - 1, t)
  }

  /** `mime_map.get(t)` on the whole table. */
  function Lookup(t: string): Option<string> {
    LookupUpTo(SectionCount, t)
  }

  /** A type is found exactly when some section lists it. */
  lemma {:induction false} LookupFindsListed(n: nat, t: string)
    requires n <= SectionCount
    ensures LookupUpTo(n, t).Some? <==> exists i :: 0 <= i < n && t in Section(i)
    decreases n
  {
    if n > 0 && t !in Section(n - 1) {
      LookupFindsListed(n - 1, t);
      if exists i :: 0 <= i < n && t in Section(i) {
        var i :| 0 <= i < n && t in Section(i);
        assert i < n - 1;
      }
    }
  }

  /** The entry found is the one of the last section listing `t`. */
  lemma {:induction false} LookupFindsLastListing(n: nat, i: nat, t: string)
    requires i < n <= SectionCount && t in Section(i)
    requires forall j :: i < j < n ==> t !in Section(j)
    ensures LookupUpTo(n, t) == Some(Section(i)[t])
    decreases n
  {
    if i < n - 1 {
      assert t !in Section(n - 1);
      LookupFindsLastListing(n - 1, i, t);
    }
  }

  /** A type that is found maps to the entry of a section that lists it. */
  lemma {:induction false} LookupFindsEntry(n: nat, t: string)
    requires n <= SectionCount
    ensures LookupUpTo(n, t).Some? ==>
      exists i :: 0 <= i < n && t in Section(i) && Section(i)[t] == LookupUpTo(n, t).value
    decreases n
  {
    if n > 0 {
      if t in Section(n - 1) {
        assert Section(n - 1)[t] == LookupUpTo(n, t).value;
      } else {
        LookupFindsEntry(n - 1, t);
      }
    }
  }

  lemma ImageTypesNonEmpty()
    ensures forall t :: t in ImageTypes ==> ImageTypes[t] != ""
  {
  }

  lemma AudioTypesNonEmpty()
    ensures forall t :: t in AudioTypes ==> AudioTypes[t] != ""
  {
  }

  lemma VideoTypesNonEmpty()
    ensures forall t :: t in VideoTypes ==> VideoTypes[t] != ""
  {
  }

  lemma DocumentTypesNonEmpty()
    ensures forall t :: t in DocumentTypes ==> DocumentTypes[t] != ""
  {
  }

  lemma ArchiveTypesNonEmpty()
    ensures forall t :: t in ArchiveTypes ==> ArchiveTypes[t] != ""
  {
  }

  lemma OtherTypesNonEmpty()
    ensures forall t :: t in OtherTypes ==> OtherTypes[t] != ""
  {
  }

  /** Every extension in the table is a non-empty string, so `""` can only
      mean "not listed". */
  lemma ExtensionsNonEmpty()
    ensures forall i, t :: 0 <= i < SectionCount && t in Section(i) ==> Section(i)[t] != ""
  {
    ImageTypesNonEmpty();
    AudioTypesNonEmpty();
    VideoTypesNonEmpty();
    DocumentTypesNonEmpty();
    ArchiveTypesNonEmpty();
    OtherTypesNonEmpty();
  }

  /* Which sections a few types are absent from; each fact is checked against
     one small section at a time. */

  lemma PngOutsideOtherSections()
    ensures "image/png" !in AudioTypes
    ensures "image/png" !in VideoTypes
    ensures "image/png" !in DocumentTypes
    ensures "image/png" !in ArchiveTypes
    ensures "image/png" !in OtherTypes
  {
  }

  lemma MpegAudioOutsideOtherSections()
    ensures "audio/mpeg" !in ImageTypes
    ensures "audio/mpeg" !in VideoTypes
    ensures "audio/mpeg" !in DocumentTypes
    ensures "audio/mpeg" !in ArchiveTypes
    ensures "audio/mpeg" !in OtherTypes
  {
  }

  lemma UpperCasePngUnlisted()
    ensures "IMAGE/PNG" !in ImageTypes
    ensures "IMAGE/PNG" !in AudioTypes
    ensures "IMAGE/PNG" !in VideoTypes
    ensures "IMAGE/PNG" !in DocumentTypes
    ensures "IMAGE/PNG" !in ArchiveTypes
    ensures "IMAGE/PNG" !in OtherTypes
  {
  }

  lemma InventedTypeUnlisted()
    ensures "application/unknown-x" !in ImageTypes
    ensures "application/unknown-x" !in AudioTypes
    ensures "application/unknown-x" !in VideoTypes
    ensures "application/unknown-x" !in DocumentTypes
    ensures "application/unknown-x" !in ArchiveTypes
    ensures "application/unknown-x" !in OtherTypes
  {
  }

  /** Where `image/png` sits in the table. */
  lemma PngRow()
    ensures Lookup("image/png") == Some(".png")
  {
    PngOutsideOtherSections();
    assert "image/png" in Section(0) && Section(0)["image/png"] == ".png";
    forall j | 0 < j < SectionCount ensures "image/png" !in Section(j) {
      assert j in {1, 2, 3, 4, 5};
    }
    LookupFindsLastListing(SectionCount, 0, "image/png");
  }

  /** Where `audio/mpeg` sits in the table. */
  lemma MpegAudioRow()
    ensures Lookup("audio/mpeg") == Some(".mp3")
  {
    MpegAudioOutsideOtherSections();
    assert "audio/mpeg" in Section(1) && Section(1)["audio/mpeg"] == ".mp3";
    forall j | 1 < j < SectionCount ensures "audio/mpeg" !in Section(j) {
      assert j in {2, 3, 4, 5};
    }
    LookupFindsLastListing(SectionCount, 1, "audio/mpeg");
  }

  /** The table lists neither an upper-case spelling nor an invented type. */
  lemma UnlistedRows()
    ensures Lookup("IMAGE/PNG") == None
    ensures Lookup("application/unknown-x") == None
  {
    UpperCasePngUnlisted();
    InventedTypeUnlisted();
    forall i | 0 <= i < SectionCount
      ensures "IMAGE/PNG" !in Section(i) && "application/unknown-x" !in Section(i)
    {
      assert i in {0, 1, 2, 3, 4, 5};
    }
    LookupFindsListed(SectionCount, "IMAGE/PNG");
    LookupFindsListed(SectionCount, "application/unknown-x");
  }
}

/**
  The media classifier: the extension table keyed by MIME type, the reduction of
  a Content-Type header to its main type, and the coarse media kinds used for
  display and for deciding whether to attempt a transcription.
 */
module Mime {
  import opened PyText
  import opened MimeTable
  import opened Wrappers

  /** The main type of a Content-Type value: the text before the first `;`,
      with surrounding white space removed, so it contains no `;` and neither
      starts nor ends with white space. */
  function MainType(mime: string): (t: string)
    ensures ';' !in t
    ensures t == [] || (!IsSpace(t[0]) && !IsSpace(t[|t| - 1]))
  {
    var b := BeforeFirst(mime, ';');
    StripShape(b);
    Strip(b)
  }

  /** `_get_extension_from_mime`: the table entry of the main type, or `""`
      for a type the table does not list; it never fails. */
  function ExtensionFromMime(mime: string): (e: string)
    ensures e != "" <==> exists i :: 0 <= i < SectionCount && MainType(mime) in Section(i)
    ensures e != "" ==>
      exists i :: 0 <= i < SectionCount && MainType(mime) in Section(i) && Section(i)[MainType(mime)] == e
  {
    var t := MainType(mime);
    LookupFindsListed(SectionCount, t);
    LookupFindsEntry(SectionCount, t);
    ExtensionsNonEmpty();
    Lookup(t).GetOr("")
  }

  /** A main type no section lists gives the empty extension, and a listed one
      gives the entry of the last section listing it. */
  lemma ExtensionOfMainType(mime: string)
    ensures (forall i :: 0 <= i < SectionCount ==> MainType(mime) !in Section(i)) ==> ExtensionFromMime(mime) == ""
    ensures forall i :: 0 <= i < SectionCount ==>
      (MainType(mime) in Section(i) && (forall j :: i < j < SectionCount ==> MainType(mime) !in Section(j)) ==>
        ExtensionFromMime(mime) == Section(i)[MainType(mime)])
  {
    LookupFindsListed(SectionCount, MainType(mime));
    forall i | 0 <= i < SectionCount && MainType(mime) in Section(i)
      && (forall j :: i < j < SectionCount ==> MainType(mime) !in Section(j))
      ensures ExtensionFromMime(mime) == Section(i)[MainType(mime)]
    {
      LookupFindsLastListing(SectionCount, i, MainType(mime));
    }
  }

  /** Parameters after the first `;` do not influence the main type. */
  lemma MainTypeIgnoresParameters(t: string, params: string)
    requires ';' !in t
    ensures MainType(t + ";" + params) == MainType(t)
  {
    BeforeFirstIgnoresRest(t, ';', params);
    assert BeforeFirst(t + ";" + params, ';') == t;
    assert BeforeFirst(t, ';') == t;
  }

  /** A bare type (no `;`, no surrounding white space) is its own main type,
      whatever white space surrounds it. */
  lemma MainTypeOfPadded(pre: string, t: string, post: string)
    requires forall i :: 0 <= i < |pre| ==> IsSpace(pre[i])
    requires forall i :: 0 <= i < |post| ==> IsSpace(post[i])
    requires t != [] && !IsSpace(t[0]) && !IsSpace(t[|t| - 1])
    requires ';' !in pre + t + post
    ensures MainType(pre + t + post) == t
  {
    assert BeforeFirst(pre + t + post, ';') == pre + t + post;
    StripPadded(pre, t, post);
  }

  /** The main type of a bare type, of the same type padded with white space,
      and of either followed by parameters is the bare type. */
  lemma MainTypeOfHeader(pre: string, t: string, post: string, params: string)
    requires forall i :: 0 <= i < |pre| ==> IsSpace(pre[i])
    requires forall i :: 0 <= i < |post| ==> IsSpace(post[i])
    requires t != [] && !IsSpace(t[0]) && !IsSpace(t[|t| - 1])
    requires ';' !in pre + t + post
    ensures MainType(pre + t + post + ";" + params) == t
    ensures MainType(pre + t + post) == t
    ensures MainType(t) == t
  {
    MainTypeIgnoresParameters(pre + t + post, params);
    MainTypeOfPadded(pre, t, post);
    MainTypeOfPadded([], t, []);
    assert [] + t + [] == t;
  }

  /** The extension depends on the Content-Type only through its main type:
      parameters after the first `;` and white space around the main type are
      ignored, and the bare type is looked up as it is. */
  lemma ExtensionDependsOnMainTypeOnly(pre: string, t: string, post: string, params: string)
    requires forall i :: 0 <= i < |pre| ==> IsSpace(pre[i])
    requires forall i :: 0 <= i < |post| ==> IsSpace(post[i])
    requires t != [] && !IsSpace(t[0]) && !IsSpace(t[|t| - 1])
    requires ';' !in pre + t + post
    ensures ExtensionFromMime(pre + t + post + ";" + params) == ExtensionFromMime(t)
    ensures ExtensionFromMime(pre + t + post) == ExtensionFromMime(t)
    ensures ExtensionFromMime(t) == Lookup(t).GetOr("")
  {
    MainTypeOfHeader(pre, t, post, params);
  }

  /* Main types of the example headers, each checked on its own. */

  lemma ParameterExample()
    ensures MainType("image/png; charset=binary") == "image/png"
  {
    assert "image/png; charset=binary" == [] + "image/png" + [] + ";" + " charset=binary";
    MainTypeOfHeader([], "image/png", [], " charset=binary");
  }

  lemma PaddingExample()
    ensures MainType(" audio/mpeg ") == "audio/mpeg"
    ensures MainType("audio/mpeg") == "audio/mpeg"
  {
    assert " audio/mpeg " == " " + "audio/mpeg" + " ";
    MainTypeOfHeader(" ", "audio/mpeg", " ", "");
  }

  lemma UpperCaseExample()
    ensures MainType("IMAGE/PNG") == "IMAGE/PNG"
  {
    MainTypeOfHeader([], "IMAGE/PNG", [], "");
  }

  lemma UnknownExample()
    ensures MainType("application/unknown-x") == "application/unknown-x"
  {
    MainTypeOfHeader([], "application/unknown-x", [], "");
  }

  /** With the channel's table: a header with parameters resolves through its
      main type, white space around it is stripped, a type the table does not
      list gives the empty extension, and keys are matched case-sensitively. */
  lemma ExtensionExamples()
    ensures ExtensionFromMime("image/png; charset=binary") == ".png"
    ensures ExtensionFromMime(" audio/mpeg ") == ".mp3"
    ensures ExtensionFromMime("application/unknown-x") == ""
    ensures ExtensionFromMime("IMAGE/PNG") == ""
  {
    PngRow();
    MpegAudioRow();
    UnlistedRows();
    ParameterExample();
    PaddingExample();
    UpperCaseExample();
    UnknownExample();
  }

  /** The bare `audio/mpeg` type maps to `.mp3`. */
  lemma MpegAudioExtension()
    ensures ExtensionFromMime("audio/mpeg") == ".mp3"
  {
    MpegAudioRow();
    PaddingExample();
  }

  /** The coarse media kinds shown to the agent. */
  datatype Kind = Image | Video | Audio | File {
    /** The word used inside the `[kind: path]` display text. */
    function Name(): string {
      match this
      case Image => "image"
      case Video => "video"
      case Audio => "audio"
      case File => "file"
    }
  }

  /** The audio test that decides whether a transcription is attempted: an
      `audio/` prefix, or the word `audio` anywhere in the type. */
  predicate IsAudio(contentType: string) {
    "audio/" <= contentType || Contains(contentType, "audio")
  }

  /** The prefix half of the audio test is subsumed by the substring half. */
  lemma AudioTestIsSubstringTest(contentType: string)
    ensures IsAudio(contentType) <==> Contains(contentType, "audio")
  {
    if "audio/" <= contentType {
      assert "audio" <= contentType;
      PrefixIsContained(contentType, "audio");
    }
  }

  /** The kind used for display: the image and video prefixes take precedence
      over the audio test, and anything else is a generic file. */
  function DisplayKind(contentType: string): (k: Kind)
    ensures k == Image <==> "image/" <= contentType
    ensures k == Video <==> "video/" <= contentType
    ensures k == Audio <==> !("image/" <= contentType) && !("video/" <= contentType) && IsAudio(contentType)
    ensures k == File <==> !("image/" <= contentType) && !("video/" <= contentType) && !IsAudio(contentType)
  {
    if "image/" <= contentType then
      assert contentType[0] == 'i';
      Image
    else if "video/" <= contentType then Video
    else if IsAudio(contentType) then Audio
    else File
  }

  /** A displayed audio kind always means a transcription was attempted, but
      not the other way round: `video/x-audio` is displayed as video while
      still passing the audio test. */
  lemma AudioKindPrecedence()
    ensures forall ct :: DisplayKind(ct) == Audio ==> IsAudio(ct)
    ensures DisplayKind("video/x-audio") == Video && IsAudio("video/x-audio")
    ensures DisplayKind("audio/mpeg") == Audio
  {
    var ct := "video/x-audio";
    assert OccursAt(ct, "audio", 8);
    assert "audio/" <= "audio/mpeg";
    assert "audio/mpeg"[0] == 'a';
  }
}

=== FILE: pytext.dfy ===
/**
  The few Python `str` operations the channel relies on, written out over
  `seq<char>`: `strip()`, `split(sep)[0]`, `lower()`, `startswith` and the
  substring test `in`.
 */
module PyText {

  /** The characters for which Python's `str.isspace()` holds; `strip()` with no
      argument removes exactly these from both ends. */
  predicate IsSpace(c: char) {
    var n := c as int;
    || (9 <= n <= 13)
    || (28 <= n <= 32)
    || n == 0x85 || n == 0xA0 || n == 0x1680
    || (0x2000 <= n <= 0x200A)
    || n == 0x2028 || n == 0x2029 || n == 0x202F || n == 0x205F || n == 0x3000
  }

  /** Drops leading white space. */
  function TrimLeft(s: string): string {
    if |s| > 0 && IsSpace(s[0]) then TrimLeft(s[1..]) else s
  }

  /** Drops trailing white space. */
  function TrimRight(s: string): string {
    if |s| > 0 && IsSpace(s[|s| - 1]) then TrimRight(s[..|s| - 1]) else s
  }

  /** Python's `s.strip()`. */
  function Strip(s: string): string {
    TrimRight(TrimLeft(s))
  }

  /** `TrimLeft` keeps the suffix of `s` that starts at the first non-space
      character: everything it drops is white space. */
  lemma {:induction false} TrimLeftShape(s: string)
    ensures var r := TrimLeft(s);
      && |r| <= |s| && r == s[|s| - |r|..]
      && (forall i :: 0 <= i < |s| - |r| ==> IsSpace(s[i]))
      && (r == [] || !IsSpace(r[0]))
  {
    if |s| > 0 && IsSpace(s[0]) {
      TrimLeftShape(s[1..]);
    }
  }

  /** `TrimRight` keeps the prefix of `s` that ends at the last non-space
      character: everything it drops is white space. */
  lemma {:induction false} TrimRightShape(s: string)
    ensures var r := TrimRight(s);
      && |r| <= |s| && r == s[..|r|]
      && (forall i :: |r| <= i < |s| ==> IsSpace(s[i]))
      && (r == [] || !IsSpace(r[|r| - 1]))
  {
    if |s| > 0 && IsSpace(s[|s| - 1]) {
      TrimRightShape(s[..|s| - 1]);
    }
  }

  /** `strip()` returns a contiguous piece of `s` that neither starts nor ends
      with white space, and drops only white space around it. */
  lemma StripShape(s: string)
    ensures var r := Strip(s);
      && (exists i, j :: 0 <= i <= j <= |s| && r == s[i..j]
            && (forall k :: 0 <= k < i ==> IsSpace(s[k]))
            && (forall k :: j <= k < |s| ==> IsSpace(s[k])))
      && (r == [] || (!IsSpace(r[0]) && !IsSpace(r[|r| - 1])))
  {
    var l := TrimLeft(s);
    var r := TrimRight(l);
    TrimLeftShape(s);
    TrimRightShape(l);
    var i := |s| - |l|;
    var j := i + |r|;
    assert r == s[i..j];
    assert forall k :: j <= k < |s| ==> s[k] == l[k - i];
    if r != [] {
      assert r[0] == l[0];
    }
  }

  /** Leading white space in front of a non-space character is exactly what
      `TrimLeft` removes. */
  lemma {:induction false} TrimLeftPadded(pre: string, u: string)
    requires forall i :: 0 <= i < |pre| ==> IsSpace(pre[i])
    requires u != [] && !IsSpace(u[0])
    ensures TrimLeft(pre + u) == u
  {
    if |pre| > 0 {
      assert (pre + u)[1..] == pre[1..] + u;
      TrimLeftPadded(pre[1..], u);
    }
  }

  /** Trailing white space after a non-space character is exactly what
      `TrimRight` removes. */
  lemma {:induction false} TrimRightPadded(u: string, post: string)
    requires forall i :: 0 <= i < |post| ==> IsSpace(post[i])
    requires u != [] && !IsSpace(u[|u| - 1])
    ensures TrimRight(u + post) == u
  {
    if |post| > 0 {
      assert (u + post)[..|u + post| - 1] == u + post[..|post| - 1];
      TrimRightPadded(u, post[..|post| - 1]);
    }
  }

  /** `strip()` of a padded word gives back the word. */
  lemma StripPadded(pre: string, t: string, post: string)
    requires forall i :: 0 <= i < |pre| ==> IsSpace(pre[i])
    requires forall i :: 0 <= i < |post| ==> IsSpace(post[i])
    requires t != [] && !IsSpace(t[0]) && !IsSpace(t[|t| - 1])
    ensures Strip(pre + t + post) == t
  {
    assert pre + t + post == pre + (t + post);
    TrimLeftPadded(pre, t + post);
    TrimRightPadded(t, post);
  }

  /** Python's `s.split(sep)[0]`: everything before the first `sep`, or all of
      `s` when `sep` does not occur. */
  function BeforeFirst(s: string, sep: char): (r: string)
    ensures r <= s
    ensures sep !in r
    ensures |r| < |s| ==> s[|r|] == sep
  {
    if |s| == 0 || s[0] == sep then [] else [s[0]] + BeforeFirst(s[1..], sep)
  }

  /** Whatever follows the first separator does not influence `BeforeFirst`. */
  lemma {:induction false} BeforeFirstIgnoresRest(t: string, sep: char, rest: string)
    requires sep !in t
    ensures BeforeFirst(t + [sep] + rest, sep) == t
  {
    if |t| > 0 {
      assert (t + [sep] + rest)[1..] == t[1..] + [sep] + rest;
      BeforeFirstIgnoresRest(t[1..], sep, rest);
    }
  }

  /** Lower-cases one ASCII letter and leaves every other character alone. */
  function LowerChar(c: char): char {
    if 'A' <= c <= 'Z' then (c as int - 'A' as int + 'a' as int) as char else c
  }

  /** Python's `s.lower()`, restricted to the ASCII letters. */
  function Lower(s: string): (r: string)
    ensures |r| == |s|
    ensures forall i :: 0 <= i < |s| ==> r[i] == LowerChar(s[i])
  {
    if |s| == 0 then [] else [LowerChar(s[0])] + Lower(s[1..])
  }

  /** A string without upper-case ASCII letters is its own lower case. */
  lemma LowerOfLowerCase(s: string)
    requires forall i :: 0 <= i < |s| ==> !('A' <= s[i] <= 'Z')
    ensures Lower(s) == s
  {
  }

  /** Lower-casing twice is the same as lower-casing once. */
  lemma LowerIdempotent(s: string)
    ensures Lower(Lower(s)) == Lower(s)
  {
  }

  /** `t` occurs in `s` starting at index `i`. */
  predicate OccursAt(s: string, t: string, i: int) {
    0 <= i <= |s| - |t| && s[i..i + |t|] == t
  }

  /** Python's `t in s` on strings: `t` occurs somewhere in `s` as a contiguous run. */
  predicate Contains(s: string, t: string) {
    exists i :: 0 <= i <= |s| - |t| && OccursAt(s, t, i)
  }

  /** A prefix is in particular a substring. */
  lemma PrefixIsContained(s: string, t: string)
    requires t <= s
    ensures Contains(s, t)
  {
    assert OccursAt(s, t, 0);
  }
}

=== FILE: scenarios.dfy ===
/**
  Concrete scenarios of the channel, each stated over the model: the
  attachment pipeline on an `audio/mpeg` download, and a message followed by
  a reply.
 */
module Scenarios {
  import opened Wrappers
  import opened Json
  import opened PyText
  import opened Mime
  import opened Attachment
  import TypingRegistry
  import Channel
  import Session

  /** What the pipeline knows about an `audio/mpeg` response. */
  lemma MpegAudioFacts()
    ensures ContentTypeOf(Some("audio/mpeg")) == "audio/mpeg"
    ensures ExtensionFromMime("audio/mpeg") == ".mp3"
    ensures IsAudio("audio/mpeg") && DisplayKind("audio/mpeg") == Audio
  {
    LowerOfLowerCase("audio/mpeg");
    MpegAudioExtension();
    AudioKindPrecedence();
  }

  /** The file an `audio/mpeg` download is saved to ends in `.mp3`. */
  lemma MpegAudioPath(u: string, env: Env)
    ensures SavedPath(env, u, ExtensionFromMime(ContentTypeOf(Some("audio/mpeg")))) == SavedPath(env, u, ".mp3")
  {
    MpegAudioFacts();
  }

  /** A successful `audio/mpeg` download is saved as `.mp3`, whatever the
      transcriber returns. */
  lemma MpegAudioSaved(u: string, env: Env, body: seq<bv8>, t: Transcript)
    requires u != ""
    ensures HandleAttachment(JStr(u), Response(200, Some("audio/mpeg"), body), t, env).path
      == Some(SavedPath(env, u, ".mp3"))
  {
    SavedDownload(u, Some("audio/mpeg"), body, t, env);
    MpegAudioPath(u, env);
  }

  /** The display text of an `audio/mpeg` download: the transcription when it
      is non-empty, else the generic audio text. */
  lemma MpegAudioDescribed(p: string, t: Transcript)
    ensures t.Text? && t.text != "" ==>
      Describe(ContentTypeOf(Some("audio/mpeg")), p, t) == "[transcription: " + t.text + "]"
    ensures !(t.Text? && t.text != "") ==>
      Describe(ContentTypeOf(Some("audio/mpeg")), p, t) == Labelled(Audio, p)
  {
    MpegAudioFacts();
  }

  /** An `audio/mpeg` download is saved as `.mp3`, and a non-empty
      transcription becomes the display text. */
  lemma TranscribedExample(u: string, env: Env, body: seq<bv8>, text: string)
    requires u != "" && text != ""
    ensures var o := HandleAttachment(JStr(u), Response(200, Some("audio/mpeg"), body), Text(text), env);
      && o.display == "[transcription: " + text + "]"
      && o.path == Some(SavedPath(env, u, ".mp3"))
  {
    MpegAudioSaved(u, env, body, Text(text));
    MpegAudioDescribed(SavedPath(env, u, ".mp3"), Text(text));
  }

  /** An empty or failed transcription of an `audio/mpeg` download falls back
      to the generic audio text naming the same `.mp3` path. */
  lemma UntranscribedExample(u: string, env: Env, body: seq<bv8>, failed: Transcript)
    requires u != ""
    requires failed == TranscribeRaised || failed == Text("")
    ensures var o := HandleAttachment(JStr(u), Response(200, Some("audio/mpeg"), body), failed, env);
      && o.path == Some(SavedPath(env, u, ".mp3"))
      && o.display == Labelled(Audio, SavedPath(env, u, ".mp3"))
  {
    MpegAudioSaved(u, env, body, failed);
    MpegAudioDescribed(SavedPath(env, u, ".mp3"), failed);
  }

  /** The frame the bridge sends for a text message "hi" from user `u1` in
      thread `c1`. */
  const HiFrame: Channel.Inbound := Channel.Obj(map[
    "type" := JStr("message"), "senderId" := JStr("u1"), "threadId" := JStr("c1"),
    "content" := JStr("hi"), "messageId" := JStr("m1"), "timestamp" := JNum(1),
    "isGroup" := JBool(false)])

  /** A message frame from thread `c1` whose content is the text "hi"; the
      other fields are whatever the bridge put there. */
  predicate HiMessage(frame: Channel.Inbound) {
    && Channel.IsMessage(frame)
    && Get(frame.data, "threadId", JStr("")) == JStr("c1")
    && Get(frame.data, "content", JStr("")) == JStr("hi")
  }

  /** The concrete frame is such a message, and the intake receives its
      sender, chat, text and metadata. */
  lemma HiFrameFields()
    ensures HiMessage(HiFrame)
    ensures Channel.IntakeOf(HiFrame.data, "hi", []) ==
      Channel.Intake(JStr("u1"), JStr("c1"), "hi", [], JStr("m1"), JNum(1), JBool(false))
  {
  }

  /** A channel with no typing tasks receives "hi" in thread `c1`: a typing
      task is started for `c1`, then the intake is called with the frame's
      fields. */
  lemma ReceiveHi(c: Channel.State, frame: Channel.Inbound, fetch: FetchResult, t: Transcript, env: Env)
    requires c.typing == TypingRegistry.Empty
    requires HiMessage(frame)
    ensures var d := Channel.Dispatch(c, frame, fetch, t, env);
      && d.trace == c.trace + [
           Channel.TypingStarted(JStr("c1"), 0),
           Channel.Handled(Channel.IntakeOf(frame.data, "hi", []))]
      && d.typing.tasks == map[TypingRegistry.KStr("c1") := 0]
      && d.typing.pool == map[0 := TypingRegistry.Task(JStr("c1"), TypingRegistry.Live)]
      && d.connected == c.connected && d.wsPresent == c.wsPresent
  {
  }

  /** The reply "hello" to `c1` cancels the typing task and writes exactly one
      send frame. */
  lemma ReplyHello(c: Channel.State)
    requires c.wsPresent && c.connected
    requires c.typing.tasks == map[TypingRegistry.KStr("c1") := 0]
    requires c.typing.pool == map[0 := TypingRegistry.Task(JStr("c1"), TypingRegistry.Live)]
    ensures var d := Channel.Send(c, "c1", "hello", true);
      && d.trace == c.trace + [Channel.Wrote(Channel.SendText("c1", "hello"))]
      && d.typing.tasks == map[]
      && d.typing.pool[0].status == TypingRegistry.Cancelled
  {
  }

  /** Five steps run one after another. */
  lemma RunOfFive(c: Channel.State, s0: Session.Step, s1: Session.Step, s2: Session.Step, s3: Session.Step,
                  s4: Session.Step, env: Env)
    ensures Session.Run(c, [s0, s1, s2, s3, s4], env) ==
      Session.Apply(Session.Apply(Session.Apply(Session.Apply(Session.Apply(c, s0, env), s1, env), s2, env), s3, env), s4, env)
  {
    var c1 := Session.Apply(c, s0, env);
    var c2 := Session.Apply(c1, s1, env);
    var c3 := Session.Apply(c2, s2, env);
    var c4 := Session.Apply(c3, s3, env);
    assert [s0, s1, s2, s3, s4][1..] == [s1, s2, s3, s4];
    assert [s1, s2, s3, s4][1..] == [s2, s3, s4];
    assert [s2, s3, s4][1..] == [s3, s4];
    assert [s3, s4][1..] == [s4];
    assert Session.Run(c4, [s4], env) == Session.Apply(c4, s4, env);
    assert Session.Run(c3, [s3, s4], env) == Session.Run(c4, [s4], env);
    assert Session.Run(c2, [s2, s3, s4], env) == Session.Run(c3, [s3, s4], env);
    assert Session.Run(c1, [s1, s2, s3, s4], env) == Session.Run(c2, [s2, s3, s4], env);
  }

  /** The whole exchange from a fresh channel: start, dial, connect and log in,
      receive "hi" in `c1`, reply "hello". No typing task is left registered. */
  lemma HiThenHello(frame: Channel.Inbound, fetch: FetchResult, t: Transcript, env: Env)
    requires HiMessage(frame)
    ensures var steps := [Session.Begin, Session.Dial, Session.Open(true), Session.Receive(frame, fetch, t),
                          Session.Reply("c1", "hello", true)];
      var d := Session.Run(Channel.Initial, steps, env);
      && d.trace == [
           Channel.Wrote(Channel.Login),
           Channel.TypingStarted(JStr("c1"), 0),
           Channel.Handled(Channel.IntakeOf(frame.data, "hi", [])),
           Channel.Wrote(Channel.SendText("c1", "hello"))]
      && d.typing.tasks == map[]
  {
    var s0, s1, s2, s3, s4 := Session.Begin, Session.Dial, Session.Open(true), Session.Receive(frame, fetch, t),
                              Session.Reply("c1", "hello", true);
    RunOfFive(Channel.Initial, s0, s1, s2, s3, s4, env);
    var c2 := Channel.Opened(Channel.Dial(Channel.Begin(Channel.Initial)), true);
    ReceiveHi(c2, frame, fetch, t, env);
    ReplyHello(Channel.Dispatch(c2, frame, fetch, t, env));
  }

  /** The bridge sees the login frame and then the reply, and nothing else. */
  lemma HiThenHelloOutbox(i: Channel.Intake)
    ensures Channel.Outbox([
           Channel.Wrote(Channel.Login),
           Channel.TypingStarted(JStr("c1"), 0),
           Channel.Handled(i),
           Channel.Wrote(Channel.SendText("c1", "hello"))])
      == [Channel.Login, Channel.SendText("c1", "hello")]
  {
    var last := [Channel.Wrote(Channel.SendText("c1", "hello"))];
    var tail := [Channel.Handled(i)] + last;
    var mid := [Channel.TypingStarted(JStr("c1"), 0)] + tail;
    assert Channel.Outbox(last) == [Channel.SendText("c1", "hello")];
    assert tail[1..] == last && Channel.Outbox(tail) == Channel.Outbox(last);
    assert mid[1..] == tail && Channel.Outbox(mid) == Channel.Outbox(tail);
    var all := [Channel.Wrote(Channel.Login)] + mid;
    assert all[1..] == mid && Channel.Outbox(all) == [Channel.Login] + Channel.Outbox(mid);
    assert all == [Channel.Wrote(Channel.Login), Channel.TypingStarted(JStr("c1"), 0),
                   Channel.Handled(i), Channel.Wrote(Channel.SendText("c1", "hello"))];
  }
}

=== FILE: session.dfy ===
/**
  Runs of the channel: any sequence of the transitions the connection loop,
  the bridge, the bus and the typing loops can cause, applied in order. The
  properties here hold for every such run: the registry invariant is kept,
  and once a chat's typing is stopped no typing frame for it is written
  again until a new message from that chat starts a new task.
 */
module Session {
  import opened Wrappers
  import opened Json
  import opened Attachment
  import opened TypingRegistry
  import opened Channel

  /** One thing that can happen to the channel. */
  datatype Step =
    | Begin
    | Dial
    | Open(loginOk: bool)
    | Lose
    | Receive(frame: Inbound, fetch: FetchResult, transcript: Transcript)
    | Reply(chat: string, text: string, writeOk: bool)
    | Tick(id: nat, writeOk: bool)
    | Halt

  /** One step; it only ever appends to the trace. */
  function Apply(c: State, step: Step, env: Env): (d: State)
    ensures c.trace <= d.trace
  {
    match step
    case Begin => Channel.Begin(c)
    case Dial => Channel.Dial(c)
    case Open(ok) => Opened(c, ok)
    case Lose => ConnectionLost(c).0
    case Receive(frame, fetch, transcript) => Dispatch(c, frame, fetch, transcript, env)
    case Reply(chat, text, ok) => Send(c, chat, text, ok)
    case Tick(id, ok) => TypingTick(c, id, ok)
    case Halt => Channel.Stop(c)
  }

  /** The steps applied in order; the effects of a run extend the effects
      before it. */
  function Run(c: State, steps: seq<Step>, env: Env): (d: State)
    ensures c.trace <= d.trace
    decreases |steps|
  {
    if steps == [] then c else Run(Apply(c, steps[0], env), steps[1..], env)
  }

  // ---------------------------------------------------------------------------
  // The registry invariant

  /** Every step keeps the registry invariant. */
  lemma ApplyKeepsValid(c: State, step: Step, env: Env)
    requires Valid(c.typing)
    ensures Valid(Apply(c, step, env).typing)
  {
    match step
    case Receive(frame, fetch, transcript) =>
      if IsMessage(frame) {
        var chat := Get(frame.data, "threadId", JStr(""));
        if KeyOf(chat).Some? {
          StartValid(c.typing, chat);
        }
      }
    case Reply(chat, text, ok) =>
      StopValid(c.typing, KStr(chat));
    case Tick(id, ok) =>
      FinishValid(c.typing, id);
    case Halt =>
      StopAllQuiet(c.typing);
    case _ =>
  }

  /** Every run keeps the registry invariant. */
  lemma {:induction false} RunKeepsValid(c: State, steps: seq<Step>, env: Env)
    requires Valid(c.typing)
    ensures Valid(Run(c, steps, env).typing)
    decreases |steps|
  {
    if steps != [] {
      ApplyKeepsValid(c, steps[0], env);
      RunKeepsValid(Apply(c, steps[0], env), steps[1..], env);
    }
  }

  // ---------------------------------------------------------------------------
  // No typing after stop

  /** A typing frame written for chat key `k`. */
  predicate TypingFor(e: Event, k: Key) {
    e.Wrote? && e.frame.Typing? && KeyOf(e.frame.chat) == Some(k)
  }

  /** A typing task started for chat key `k`. */
  predicate StartFor(e: Event, k: Key) {
    e.TypingStarted? && KeyOf(e.chat) == Some(k)
  }

  /** In `evs`, every typing frame for `k` comes after a task start for `k`. */
  predicate QuietUntilRestart(evs: seq<Event>, k: Key) {
    forall i :: 0 <= i < |evs| && TypingFor(evs[i], k) ==>
      exists j :: 0 <= j < i && StartFor(evs[j], k)
  }

  /** The steps' effect on the trace when no task for `k` is live: nothing
      for `k` is written, and `k` either stays without a live task or the
      step records a task start for it. */
  predicate QuietStep(c: State, d: State, k: Key) {
    && c.trace <= d.trace
    && (forall i :: |c.trace| <= i < |d.trace| ==> !TypingFor(d.trace[i], k))
    && (NoLive(d.typing, k) || exists j :: |c.trace| <= j < |d.trace| && StartFor(d.trace[j], k))
  }

  /** Starting a task for another chat leaves `k` without a live task. */
  lemma StartOtherKeepsQuiet(r: Registry, chat: JVal, k: Key)
    requires Valid(r) && NoLive(r, k)
    requires KeyOf(chat).Some? && KeyOf(chat).value != k
    ensures NoLive(Start(r, chat).value, k)
  {
    var d := Start(r, chat).value;
    var s := TypingRegistry.Stop(r, KeyOf(chat).value);
    forall id | id in d.pool ensures !LiveFor(d, k, id) {
      if id != r.next {
        assert d.pool[id] == s.pool[id];
        assert !LiveFor(r, k, id);
      }
    }
  }

  lemma OnMessageKeepsQuiet(c: State, data: map<string, JVal>, content: string, media: seq<string>,
                            effects: seq<Event>, k: Key)
    requires Valid(c.typing) && NoLive(c.typing, k) && AttachmentOnly(effects)
    ensures QuietStep(c, OnMessage(c, data, content, media, effects), k)
  {
    var d := OnMessage(c, data, content, media, effects);
    OnMessageWritesNothing(c, data, content, media, effects);
    var chat := Get(data, "threadId", JStr(""));
    if KeyOf(chat).Some? {
      assert d.trace[|c.trace| + |effects|] == TypingStarted(chat, c.typing.next);
      if KeyOf(chat).value != k {
        StartOtherKeepsQuiet(c.typing, chat, k);
      }
    }
  }

  lemma DispatchKeepsQuiet(c: State, frame: Inbound, fetch: FetchResult, t: Transcript, env: Env, k: Key)
    requires Valid(c.typing) && NoLive(c.typing, k)
    ensures QuietStep(c, Dispatch(c, frame, fetch, t, env), k)
  {
    if IsMessage(frame) {
      var raw := Get(frame.data, "content", JStr(""));
      var cm := MessageContent(raw, fetch, t, env);
      OnMessageKeepsQuiet(c, frame.data, cm.0, cm.1, AttachmentEffects(raw, fetch, env), k);
    }
  }

  lemma SendKeepsQuiet(c: State, chat: string, text: string, ok: bool, k: Key)
    requires Valid(c.typing) && NoLive(c.typing, k)
    ensures QuietStep(c, Send(c, chat, text, ok), k)
  {
    var d := Send(c, chat, text, ok);
    if c.wsPresent && c.connected {
      forall id | id in d.typing.pool ensures !LiveFor(d.typing, k, id) {
        assert !LiveFor(c.typing, k, id);
      }
    }
  }

  lemma TickKeepsQuiet(c: State, id: nat, ok: bool, k: Key)
    requires Valid(c.typing) && NoLive(c.typing, k)
    ensures QuietStep(c, TypingTick(c, id, ok), k)
  {
    var d := TypingTick(c, id, ok);
    forall id' | id' in d.typing.pool ensures !LiveFor(d.typing, k, id') {
      assert !LiveFor(c.typing, k, id');
    }
    if d.trace != c.trace {
      assert !LiveFor(c.typing, k, id);
      assert d.trace[|c.trace|] == Wrote(Typing(c.typing.pool[id].chat));
    }
  }

  /** A step taken while no task for `k` is live writes no typing frame for
      `k`, and either still leaves no live task for `k` or starts one. */
  lemma ApplyKeepsQuiet(c: State, step: Step, env: Env, k: Key)
    requires Valid(c.typing) && NoLive(c.typing, k)
    ensures QuietStep(c, Apply(c, step, env), k)
  {
    match step
    case Receive(frame, fetch, transcript) => DispatchKeepsQuiet(c, frame, fetch, transcript, env, k);
    case Reply(chat, text, ok) => SendKeepsQuiet(c, chat, text, ok, k);
    case Tick(id, ok) => TickKeepsQuiet(c, id, ok, k);
    case Halt => StopAllQuiet(c.typing);
    case _ =>
  }

  /** Gluing a quiet step in front of a quiet remainder. */
  lemma QuietConcat(a: seq<Event>, b: seq<Event>, k: Key)
    requires forall i :: 0 <= i < |a| ==> !TypingFor(a[i], k)
    requires QuietUntilRestart(b, k) || exists j :: 0 <= j < |a| && StartFor(a[j], k)
    ensures QuietUntilRestart(a + b, k)
  {
    var ab := a + b;
    forall i | 0 <= i < |ab| && TypingFor(ab[i], k)
      ensures exists j :: 0 <= j < i && StartFor(ab[j], k)
    {
      assert i >= |a| && ab[i] == b[i - |a|];
      if exists j :: 0 <= j < |a| && StartFor(a[j], k) {
        var j :| 0 <= j < |a| && StartFor(a[j], k);
        assert ab[j] == a[j];
      } else {
        var j :| 0 <= j < i - |a| && StartFor(b[j], k);
        assert ab[j + |a|] == b[j];
      }
    }
  }

  /** From any state in which no task for `k` is live, every later typing
      frame for `k` is preceded by a new task start for `k`. */
  lemma {:induction false} QuietAfterStop(c: State, steps: seq<Step>, env: Env, k: Key)
    requires Valid(c.typing) && NoLive(c.typing, k)
    ensures var d := Run(c, steps, env);
      c.trace <= d.trace && QuietUntilRestart(d.trace[|c.trace|..], k)
    decreases |steps|
  {
    if steps != [] {
      var c1 := Apply(c, steps[0], env);
      var d := Run(c1, steps[1..], env);
      ApplyKeepsQuiet(c, steps[0], env, k);
      ApplyKeepsValid(c, steps[0], env);
      RunKeepsValid(c1, steps[1..], env);
      var a := c1.trace[|c.trace|..];
      var b := d.trace[|c1.trace|..];
      assert d.trace[|c.trace|..] == a + b;
      assert forall i :: 0 <= i < |a| ==> a[i] == c1.trace[|c.trace| + i];
      if NoLive(c1.typing, k) {
        QuietAfterStop(c1, steps[1..], env, k);
      } else {
        var j :| |c.trace| <= j < |c1.trace| && StartFor(c1.trace[j], k);
        assert a[j - |c.trace|] == c1.trace[j];
      }
      QuietConcat(a, b, k);
    }
  }

  /** After a reply to `chat` on a connected channel, the chat gets no typing
      frame until a new message from it starts a task again. */
  lemma NoTypingAfterReply(c: State, chat: string, text: string, ok: bool, steps: seq<Step>, env: Env)
    requires Valid(c.typing) && c.wsPresent && c.connected
    ensures var c1 := Send(c, chat, text, ok); var d := Run(c1, steps, env);
      c1.trace <= d.trace && QuietUntilRestart(d.trace[|c1.trace|..], KStr(chat))
  {
    StopValid(c.typing, KStr(chat));
    QuietAfterStop(Send(c, chat, text, ok), steps, env, KStr(chat));
  }

  /** After `stop()`, no chat gets a typing frame until a new message from it
      starts a task again. */
  lemma NoTypingAfterHalt(c: State, steps: seq<Step>, env: Env, k: Key)
    requires Valid(c.typing)
    ensures var c1 := Channel.Stop(c); var d := Run(c1, steps, env);
      c1.trace <= d.trace && QuietUntilRestart(d.trace[|c1.trace|..], k)
  {
    StopAllQuiet(c.typing);
    QuietAfterStop(Channel.Stop(c), steps, env, k);
  }

  /** Right after `stop()`, the loop head begins no attempt and a lost
      connection is not retried. */
  lemma HaltEndsReconnects(c: State)
    ensures Channel.Dial(Channel.Stop(c)) == Channel.Stop(c)
    ensures !ConnectionLost(Channel.Stop(c)).1
  {
  }

  /** A run without `start()` from a stopped channel keeps the loop flag
      down, and when no attempt was in flight none is ever begun. */
  lemma {:induction false} StaysStopped(c: State, steps: seq<Step>, env: Env)
    requires !c.running
    requires forall i :: 0 <= i < |steps| ==> !steps[i].Begin?
    ensures var d := Run(c, steps, env);
      !d.running && (!c.dialing ==> !d.dialing)
    decreases |steps|
  {
    if steps != [] {
      var c1 := Apply(c, steps[0], env);
      assert !c1.running && (!c.dialing ==> !c1.dialing);
      assert forall i :: 0 <= i < |steps[1..]| ==> steps[1..][i] == steps[i + 1];
      StaysStopped(c1, steps[1..], env);
    }
  }

  /** After `stop()`, and until `start()` is called again, at every point of
      every run the loop head begins no attempt and a lost connection is not
      retried; when no attempt was in flight at `stop()`, none is in flight
      at any later point, so the channel never connects again. */
  lemma NoAttemptAfterHaltRun(c: State, steps: seq<Step>, env: Env)
    requires forall i :: 0 <= i < |steps| ==> !steps[i].Begin?
    ensures forall n :: 0 <= n <= |steps| ==>
      var d := Run(Channel.Stop(c), steps[..n], env);
      && !d.running && Channel.Dial(d) == d && !ConnectionLost(d).1
      && (!c.dialing ==> !d.dialing && Opened(d, true) == d && Opened(d, false) == d)
  {
    forall n | 0 <= n <= |steps|
      ensures var d := Run(Channel.Stop(c), steps[..n], env);
        && !d.running && Channel.Dial(d) == d && !ConnectionLost(d).1
        && (!c.dialing ==> !d.dialing && Opened(d, true) == d && Opened(d, false) == d)
    {
      assert forall i :: 0 <= i < |steps[..n]| ==> steps[..n][i] == steps[i];
      StaysStopped(Channel.Stop(c), steps[..n], env);
    }
  }

  /** An attempt that began before `stop()` is not abandoned by it: when its
      handshake completes the channel is connected again, holds a socket and
      writes the login frame, although the loop flag is down. */
  lemma InFlightAttemptOutlivesHalt(c: State, ok: bool)
    requires c.running && !c.dialing
    ensures var d := Opened(Channel.Stop(Channel.Dial(c)), ok);
      && !d.running && d.connected && d.wsPresent
      && d.trace == c.trace + (if ok then [Wrote(Login)] else [])
  {
  }
}

=== FILE: typing.dfy ===
/**
  The registry of "typing…" indicator tasks: a map from chat id to the background task
  that keeps sending the indicator for that chat, and the status of every task
  ever created. Task scheduling is not modelled; a task is a record whose
  status the channel moves between `Live`, `Done` and `Cancelled`.
 */
module TypingRegistry {
  import opened Wrappers
  import opened Json

  /** A dictionary key as Python hashes it. Chat ids arrive as arbitrary JSON
      values: strings and integers are keys of their own, `None` is a key, and a
      boolean is the same key as the integer 0 or 1 (`True == 1` in Python). */
  datatype Key = KStr(s: string) | KNum(n: int) | KNone

  /** Python equality on the hashable JSON values, case by case. */
  predicate PyEq(a: JVal, b: JVal) {
    match (a, b)
    case (JNull, JNull) => true
    case (JBool(x), JBool(y)) => x == y
    case (JNum(x), JNum(y)) => x == y
    case (JBool(x), JNum(y)) => y == (if x then 1 else 0)
    case (JNum(x), JBool(y)) => x == (if y then 1 else 0)
    case (JStr(x), JStr(y)) => x == y
    case _ => false
  }

  /** The dictionary key of a chat id, or `None` when the value is a list or a
      dict: those are unhashable, and using them as a key raises `TypeError`. */
  function KeyOf(v: JVal): (k: Option<Key>)
    ensures k.None? <==> v.JArr? || v.JObj?
    ensures v.JStr? ==> k == Some(KStr(v.s))
  {
    match v
    case JNull => Some(KNone)
    case JBool(b) => Some(KNum(if b then 1 else 0))
    case JNum(n) => Some(KNum(n))
    case JStr(s) => Some(KStr(s))
    case JArr(_) => None
    case JObj(_) => None
  }

  /** Two hashable chat ids select the same registry entry exactly when Python
      considers them equal. */
  lemma KeyOfMatchesEquality(a: JVal, b: JVal)
    requires KeyOf(a).Some? && KeyOf(b).Some?
    ensures KeyOf(a) == KeyOf(b) <==> PyEq(a, b)
  {
  }

  datatype Status = Live | Done | Cancelled

  /** A typing task and the chat id it was started for. */
  datatype Task = Task(chat: JVal, status: Status)

  /** `tasks` is the chat-id map; `pool` holds every task created so far under
      its id; `next` is the id the next task receives. */
  datatype Registry = Registry(tasks: map<Key, nat>, pool: map<nat, Task>, next: nat)

  const Empty: Registry := Registry(map[], map[], 0)

  /** The registry invariant: every entry names a known task started for that
      key, ids are issued in order, and a live task is always the registered
      one for its chat, so no chat ever has two live tasks. */
  predicate Valid(r: Registry) {
    && (forall k :: k in r.tasks ==> r.tasks[k] in r.pool && KeyOf(r.pool[r.tasks[k]].chat) == Some(k))
    && (forall id :: id in r.pool ==> id < r.next)
    && (forall id :: id in r.pool && r.pool[id].status == Live ==>
          KeyOf(r.pool[id].chat).Some? && KeyOf(r.pool[id].chat).value in r.tasks
          && r.tasks[KeyOf(r.pool[id].chat).value] == id)
  }

  /** The live tasks started for key `k`. */
  predicate LiveFor(r: Registry, k: Key, id: nat) {
    id in r.pool && r.pool[id].status == Live && KeyOf(r.pool[id].chat) == Some(k)
  }

  /** No task for key `k` is live. */
  predicate NoLive(r: Registry, k: Key) {
    forall id :: id in r.pool ==> !LiveFor(r, k, id)
  }

  lemma EmptyValid()
    ensures Valid(Empty) && forall k :: NoLive(Empty, k)
  {
  }

  /** `_stop_typing`: pop the entry for `k`, and cancel its task only if that
      task has not finished. An absent key changes nothing. */
  function Stop(r: Registry, k: Key): (s: Registry)
    ensures k !in s.tasks
    ensures forall k' :: k' != k ==> (k' in s.tasks <==> k' in r.tasks)
    ensures forall k' :: k' != k && k' in r.tasks ==> s.tasks[k'] == r.tasks[k']
    ensures s.pool.Keys == r.pool.Keys && s.next == r.next
    // only the popped task can change, and only from Live to Cancelled
    ensures forall id :: id in r.pool ==>
      s.pool[id] == (if k in r.tasks && id == r.tasks[k] && r.pool[id].status == Live
                     then r.pool[id].(status := Cancelled) else r.pool[id])
    ensures k !in r.tasks ==> s == r
  {
    if k in r.tasks then
      var id := r.tasks[k];
      var pool := if id in r.pool && r.pool[id].status == Live
                  then r.pool[id := r.pool[id].(status := Cancelled)] else r.pool;
      Registry(r.tasks - {k}, pool, r.next)
    else r
  }

  /** `_start_typing`: stop any task for the chat, then register a fresh live
      one. `None` when the chat id is unhashable: the `pop` raises before
      anything changes. */
  function Start(r: Registry, chat: JVal): (s: Option<Registry>)
    ensures s.None? <==> KeyOf(chat).None?
    ensures s.Some? ==>
      var k := KeyOf(chat).value;
      && s.value.tasks == Stop(r, k).tasks[k := r.next]
      && s.value.pool == Stop(r, k).pool[r.next := Task(chat, Live)]
      && s.value.next == r.next + 1
  {
    match KeyOf(chat)
    case None => None
    case Some(k) =>
      var t := Stop(r, k);
      Some(Registry(t.tasks[k := t.next], t.pool[t.next := Task(chat, Live)], t.next + 1))
  }

  /** The typing loop of task `id` returned by itself (not connected, or a
      write failed): a live task becomes done; its entry stays registered. */
  function Finish(r: Registry, id: nat): (s: Registry)
    ensures s.tasks == r.tasks && s.next == r.next && s.pool.Keys == r.pool.Keys
    ensures forall i :: i in r.pool && i != id ==> s.pool[i] == r.pool[i]
    ensures id in r.pool ==>
      s.pool[id].chat == r.pool[id].chat
      && s.pool[id].status == (if r.pool[id].status == Live then Done else r.pool[id].status)
  {
    if id in r.pool && r.pool[id].status == Live then r.(pool := r.pool[id := r.pool[id].(status := Done)])
    else r
  }

  /** The registry part of `stop()`: every entry popped, every live task
      cancelled. */
  function StopAll(r: Registry): (s: Registry)
    ensures s.tasks == map[] && s.next == r.next && s.pool.Keys == r.pool.Keys
    ensures forall id :: id in r.pool ==> s.pool[id].chat == r.pool[id].chat
  {
    var pool := map id | id in r.pool ::
      if r.pool[id].status == Live && id in r.tasks.Values then r.pool[id].(status := Cancelled) else r.pool[id];
    Registry(map[], pool, r.next)
  }

  /** `for chat_id in list(self._typing_tasks): self._stop_typing(chat_id)`. */
  function StopEach(r: Registry, ks: seq<Key>): Registry
    decreases |ks|
  {
    if ks == [] then r else StopEach(Stop(r, ks[0]), ks[1..])
  }

  // ---------------------------------------------------------------------------
  // Properties

  /** Both operations keep the invariant. */
  lemma StopValid(r: Registry, k: Key)
    requires Valid(r)
    ensures Valid(Stop(r, k)) && NoLive(Stop(r, k), k)
  {
    var s := Stop(r, k);
    forall id | id in s.pool && s.pool[id].status == Live
      ensures KeyOf(s.pool[id].chat).Some? && KeyOf(s.pool[id].chat).value in s.tasks
        && s.tasks[KeyOf(s.pool[id].chat).value] == id
    {
      assert r.pool[id].status == Live;
    }
  }

  lemma StartValid(r: Registry, chat: JVal)
    requires Valid(r) && KeyOf(chat).Some?
    ensures Valid(Start(r, chat).value)
  {
    StopValid(r, KeyOf(chat).value);
  }

  lemma FinishValid(r: Registry, id: nat)
    requires Valid(r)
    ensures Valid(Finish(r, id))
  {
  }

  /** After `_start_typing`, the chat's entry is the one fresh live task, the
      task it replaces (if still live) is cancelled, and that is the only live
      task for the chat. */
  lemma StartRegistersFresh(r: Registry, chat: JVal)
    requires Valid(r) && KeyOf(chat).Some?
    ensures var s := Start(r, chat).value; var k := KeyOf(chat).value;
      && r.next !in r.pool
      && s.tasks[k] == r.next
      && s.pool[r.next] == Task(chat, Live)
      && (k in r.tasks && r.pool[r.tasks[k]].status == Live ==> s.pool[r.tasks[k]].status == Cancelled)
      && (forall id :: LiveFor(s, k, id) <==> id == r.next)
  {
    var s := Start(r, chat).value;
    var k := KeyOf(chat).value;
    StopValid(r, k);
    StartValid(r, chat);
    forall id | LiveFor(s, k, id)
      ensures id == r.next
    {
      assert s.tasks[k] == id;
    }
  }

  /** Starting twice leaves exactly one live task for the chat: the second. */
  lemma StartTwice(r: Registry, chat: JVal)
    requires Valid(r) && KeyOf(chat).Some?
    ensures var s := Start(Start(r, chat).value, chat).value;
      && s.tasks[KeyOf(chat).value] == r.next + 1
      && s.pool[r.next].status == Cancelled
      && (forall id :: LiveFor(s, KeyOf(chat).value, id) <==> id == r.next + 1)
  {
    var s1 := Start(r, chat).value;
    StartRegistersFresh(r, chat);
    StartValid(r, chat);
    StartRegistersFresh(s1, chat);
  }

  /** Stopping a second time changes nothing. */
  lemma StopIdempotent(r: Registry, k: Key)
    ensures Stop(Stop(r, k), k) == Stop(r, k)
  {
  }

  /** Neither operation touches another chat's entry or its task. */
  lemma OtherChatsUnaffected(r: Registry, chat: JVal, k': Key)
    requires Valid(r) && KeyOf(chat).Some? && k' != KeyOf(chat).value
    ensures var s := Start(r, chat).value;
      && (k' in s.tasks <==> k' in r.tasks)
      && (k' in r.tasks ==> s.tasks[k'] == r.tasks[k'] && s.pool[r.tasks[k']] == r.pool[r.tasks[k']])
  {
    StartRegistersFresh(r, chat);
  }

  /** Popping one registered key first does not change what `StopAll` leaves. */
  lemma StopAllAfterStop(r: Registry, k: Key)
    requires Valid(r) && k in r.tasks
    ensures StopAll(Stop(r, k)) == StopAll(r)
  {
    var t := Stop(r, k);
    forall id | id in r.pool ensures StopAll(t).pool[id] == StopAll(r).pool[id] {
      if id != r.tasks[k] {
        if id in r.tasks.Values {
          var k' :| k' in r.tasks && r.tasks[k'] == id;
          assert k' != k && t.tasks[k'] == id;
        }
      }
    }
  }

  /** Popping the keys one by one, in any order that lists each registered key
      once, is the same as `StopAll`. */
  lemma {:induction false} StopEachIsStopAll(r: Registry, ks: seq<Key>)
    requires Valid(r)
    requires forall k :: k in r.tasks <==> k in ks
    requires forall i, j :: 0 <= i < j < |ks| ==> ks[i] != ks[j]
    ensures StopEach(r, ks) == StopAll(r)
    decreases |ks|
  {
    if ks == [] {
      assert r.tasks == map[];
      assert StopAll(r).pool == r.pool;
    } else {
      var k, rest := ks[0], ks[1..];
      var t := Stop(r, k);
      StopValid(r, k);
      forall k' ensures k' in t.tasks <==> k' in rest {
        if k' in rest {
          var j :| 0 <= j < |rest| && rest[j] == k';
          assert ks[0] != ks[j + 1];
        }
      }
      forall i, j | 0 <= i < j < |rest| ensures rest[i] != rest[j] {
        assert ks[i + 1] != ks[j + 1];
      }
      StopEachIsStopAll(t, rest);
      StopAllAfterStop(r, k);
    }
  }

  /** After `StopAll` no chat has a live task and the invariant still holds. */
  lemma StopAllQuiet(r: Registry)
    requires Valid(r)
    ensures Valid(StopAll(r)) && forall k :: NoLive(StopAll(r), k)
  {
    var s := StopAll(r);
    forall k, id | id in s.pool ensures !LiveFor(s, k, id) {
      if r.pool[id].status == Live {
        assert id in r.tasks.Values;
      }
    }
  }
}

=== FILE: wrappers.dfy ===
/** The optional value used wherever the channel works with Python's `None`. */
module Wrappers {

  datatype Option<+T> = None | Some(value: T) {

    /** Returns the value held in Some, or the given default when None. */
    function GetOr(default: T): T {
      match this
      case Some(v) => v
      case None => default
    }
  }
}
